=== FILE: README.md ===
# ethereum-store: access control and order ownership

This project models the authorization and ownership layer of the store API of
ethereum-store, a Django REST Framework shop that sells goods at offered
prices. Buyers, registered or anonymous, place orders, and each order holds
purchase snapshots of offers. The model covers six parts:

- **Access policies.** Each view set has a policy made of allow-only
  statements. A request is allowed iff some statement lists its action and
  that statement's condition (an `or` of `has_perm` calls) holds.
  `AccessPolicy.Allows` states this rule once. `GoodView`, `OfferView`,
  `PurchaseView`, `OrderView` and `MyOrderView` each instantiate it.
- **Scopes.** `scope_queryset` narrows a table to the rows the caller may
  reach. Owners are `Registered(uid)` or `Anonymous` (a null `user`). An
  anonymous caller's session carries the list of ids of the orders it
  created.
- **The anonymous order-id allocator.** `MyOrderView.PerformCreate` draws
  ids from a configured inclusive range. It makes at most `attempts` tries
  and retries only on a key collision. The draws are an oracle sequence.
- **The order serializers.** These cover `offer_ids` validation, purchase
  snapshots taken from offers, and purchase replacement on update (buyer
  side and staff side). Each runs in one transaction; a failing call
  returns the store it was given.
- **The permission backend.** Anonymous callers take the permissions of a
  placeholder user, computed once and cached. Inactive users hold nothing.
  The placeholder's name can never authenticate.
- **The demo seeding.** The seeding the `demo` command runs after deleting
  the three groups and the placeholder: three groups, their fixed grants,
  and the placeholder user as a member of AnonymousBuyers.

Each table is a `map<int, T>` keyed by primary key, and a scope is a
sub-map of its input. Every request outcome is one of:

- `Denied`/`Refused`: the gate said no (HTTP 401 or 403).
- `NotInScope`/`NotFound`: the row is outside the caller's scope (404).
- a `Result` error: a validation error (400), an integrity error (a key
  collision or a missing good), or one of the allocator's two server errors:
  `EmptyRange` (the `ValueError` `randint` raises for an empty range) and
  `Exhausted` (the error of the bare `raise` after the last attempt).

Modules:

| file | module | models |
|---|---|---|
| wrappers.dfy | Wrappers | `Option`, `Result` |
| permissions.dfy | Permissions | the permissions of Good, Offer, Purchase and Order, and their names |
| models.dfy | Models | the records, status codes, address length, uniqueness |
| sessions.dfy | Sessions | the session's order-id list |
| store.dfy | Store | the tables, foreign keys, cascades, key sequences |
| access_policy.dfy | AccessPolicy | the statement rule, dispatch, list/retrieve outcomes |
| good_view.dfy, offer_view.dfy, purchase_view.dfy, order_view.dfy, my_order_view.dfy | one per view | gates, scopes, endpoints |
| requests.dfy | Requests | outcomes of requests that change the store |
| serializers.dfy | Serializers | the order serializers |
| authentication.dfy | Authentication | the permission backend |
| initialization.dfy | Initialization | the seeding of groups and the placeholder user |

## Model

| member | source | states |
|---|---|---|
| Permissions.NameRoundTrip | store/views/order.py:36-52 | decoding the `store.<codename>` name of a permission gives the permission back |
| Permissions.PermOfName | store/views/good.py:24-31 | a name decodes only to a permission carrying exactly that name |
| Permissions.NameInjective | store/models.py:84-87 | distinct permissions have distinct names, so a `has_perm` question about a name is one about a permission |
| Permissions.AllOf | store/initialization.py:60-61 | the permissions filtered by one content type are exactly those whose model is that type, the custom `view_my_*`/`moderate_my_order` ones included |
| AccessPolicy.Allows | store/views/good.py:9-22 | a request is allowed iff some statement lists its action and holds its condition; there are no deny statements |
| AccessPolicy.AllowsMonotone | store/views/order.py:9-34 | granting more permissions never turns an allow into a deny |
| AccessPolicy.Dispatch | store/views/good.py:34-38 | a handler the view's mixins provide is dispatched as itself, and one they do not provide is dispatched with no action |
| GoodView.Allowed | store/views/good.py:8-31 | list/retrieve iff `view_good`; create/update/partial_update iff `add_good` or `change_good`; anything else never |
| GoodView.DestroyNeverAllowed | store/views/good.py:34-39 | a destroy is refused even to a holder of every good permission |
| GoodView.ListResponse | store/views/good.py:41-44 | holders of `view_good` list every good, everybody else is refused |
| GoodView.RetrieveResponse | store/views/good.py:41-44 | a holder of `view_good` gets any stored good by id, a missing id gives 404, others are refused |
| OfferView.Allowed | store/views/offer.py:8-32 | list/retrieve iff `view_offer`; create/update/partial_update iff any of add/change/delete_offer; anything else never |
| OfferView.DestroyNeverAllowed | store/views/offer.py:16-21 | the mutate statement names "delete", which no handler dispatches, so destroy is refused to every caller |
| OfferView.ListResponse | store/views/offer.py:35-38 | holders of `view_offer` list every offer, unscoped |
| OfferView.RetrieveResponse | store/views/offer.py:35-38 | holders of `view_offer` get any stored offer by id |
| PurchaseView.Allowed | store/views/purchase.py:9-31 | only list/retrieve can be allowed, and only with `view_purchase` or `view_my_purchase` |
| PurchaseView.Scope | store/views/purchase.py:33-51 | `view_purchase` shows all; `view_my_purchase` alone shows a user the purchases of its orders and an anonymous caller the purchases of anonymous orders its session lists; neither permission returns the input |
| PurchaseView.ListResponse | store/views/purchase.py:54-67 | listed iff the caller holds `view_purchase` or `view_my_purchase`, and then exactly the caller's scope |
| PurchaseView.RetrieveResponse | store/views/purchase.py:54-67 | refused without either permission, otherwise found iff the purchase is in scope, returned as stored |
| PurchaseView.GlobalViewPrecedes | store/views/purchase.py:35-38 | `view_purchase` wins over `view_my_purchase` |
| PurchaseView.EmptySessionSeesNothing | store/views/purchase.py:41-46 | an anonymous caller whose session lists no order sees no purchase |
| PurchaseView.ShownPurchasesAreOwn | store/views/purchase.py:54-67 | with the gate in front, a caller without `view_purchase` is only ever shown purchases of its own orders |
| PurchaseView.ScopeWithoutGateLeaks | store/views/purchase.py:35-51 | without the gate, the scope alone hands another user's purchase to a caller holding nothing |
| OrderView.Allowed | store/views/order.py:8-52 | list/retrieve iff `view_order` or `view_my_order`; mutations iff any of add/change/delete_order or `moderate_my_order` |
| OrderView.Scope | store/views/order.py:54-67 | global permissions show all whatever else is held; otherwise a registered self-service caller gets exactly its own orders, and anybody else nothing |
| OrderView.ListResponse | store/views/order.py:70-83 | listed iff the caller holds `view_order` or `view_my_order`, and then exactly the caller's scope |
| OrderView.RetrieveResponse | store/views/order.py:70-83 | refused without either view permission, otherwise found iff the order is in scope, returned as stored |
| OrderView.ScopeMonotone | store/views/order.py:56-67 | more permissions never shrink the scope |
| OrderView.AnonymousSelfServiceListsNothing | store/views/order.py:61-67 | an anonymous caller with `view_my_order` passes the gate but lists no order |
| OrderView.SelfServiceListsOwn | store/views/order.py:61-65 | a registered caller with `view_my_order` lists exactly its own orders |
| OrderView.OthersOrderNotInScope | store/views/order.py:80-83 | another user's order answers 404 to a self-service caller, not 403 |
| OrderView.UpdateRequest | store/serializers.py:34-50 | a staff update succeeds iff the gate admits it, the order is in the caller's scope, the address and status validate, every nested order is stored and every submitted good exists; a refusal outside the scope is 404 and a validation failure is 400. It touches only an order in scope. It writes the submitted e-mail, address and status, keeps the owner, and leaves exactly the submitted purchases. It keeps every other order and purchase, adds no purchase to any other order, keeps goods and offers, fails on an unknown nested order or a missing good, and leaves the store untouched when it fails |
| OrderView.SelfServiceOwnerUpdates | store/views/order.py:29-32 | an owner holding only `moderate_my_order` can update their own order through the staff endpoint |
| OrderView.DestroyRequest | store/views/order.py:70-83 | a delete succeeds iff the gate allows it and the order is in scope; it takes the order's purchases with it |
| MyOrderView.Allowed | store/views/my_order.py:16-38 | list/retrieve iff `view_my_order`; create/update/partial_update/destroy iff `moderate_my_order`; anything else never |
| MyOrderView.Scope | store/views/my_order.py:40-52 | an anonymous caller reaches only anonymous orders, session-filtered on list only; a registered caller reaches exactly its own orders |
| MyOrderView.ListResponse | store/views/my_order.py:55-69 | listed iff the caller holds `view_my_order`, and then exactly its list scope |
| MyOrderView.RetrieveResponse | store/views/my_order.py:55-69 | refused without `view_my_order`, otherwise found iff the order is the caller's (any anonymous order for an anonymous caller, whatever its session) |
| MyOrderView.RegisteredIgnoresSession | store/views/my_order.py:49-50 | a registered caller's scope does not depend on the session |
| MyOrderView.AnonymousListWithinRetrieve | store/views/my_order.py:42-47 | an anonymous list is within what it could retrieve, and empty when the session has no list |
| MyOrderView.RegisteredNeverSeesSessionOrders | store/views/my_order.py:49-52 | a registered caller neither lists nor retrieves an anonymous order, even one its session names |
| MyOrderView.AnonymousCreateIsListed | store/views/my_order.py:91-92 | after an anonymous create and the session append, the new order is listed and everything listed before still is |
| MyOrderView.FirstFresh | store/views/my_order.py:79-86 | the attempt that succeeds is the first draw not already taken, all earlier ones being taken |
| MyOrderView.PerformCreate | store/views/my_order.py:71-92 | registered: the next sequence key, and the session is untouched; anonymous: the first free draw within the attempts, in range, appended to the session; a success adds just that order and its snapshots, keeping every other row and adding no purchase to any other order; an anonymous create with no attempts fails as exhausted; on failure nothing is stored and the session is untouched |
| MyOrderView.CreateRequest | store/views/my_order.py:24-29 | gate, then `offer_ids` validation, then the create; past both, the id, session and frame outcomes of `perform_create` hold, including that no other order gains a purchase; a success holds one snapshot per listed offer |
| MyOrderView.UpdateRequest | store/serializers.py:90-104 | succeeds exactly on an order the caller owns (any anonymous order for an anonymous caller) with a valid `offer_ids` when one is given; an invalid list is rejected before any write; it never touches another's order |
| MyOrderView.DestroyRequest | store/views/my_order.py:55-69 | a delete succeeds iff `moderate_my_order` is held and the order is the caller's |
| Models.StatusOfCode | store/models.py:70-74 | only the four codes are accepted, and each maps to the status it names |
| Models.CodeRoundTrip | store/models.py:70-74 | decoding the code of a status gives the status back |
| Models.OwnerFor | store/serializers.py:78-81 | a created order belongs to the caller iff the caller is not anonymous |
| Models.NewOrder | store/models.py:81-82 | a new order starts as Draft |
| Models.FromOffer | store/models.py:60-62 | a snapshot copies exactly the offer's good and price and has no order yet |
| Models.SaveGood | store/models.py:33 | a save fails iff another good has the name, and a success keeps names unique |
| Models.SaveOffer | store/models.py:46 | a save fails iff another offer has the same good and price, and a success keeps the pairs unique |
| Sessions.Ids | store/views/my_order.py:46 | a session without the key reads as the empty list |
| Sessions.Bind | store/views/my_order.py:91 | the new id is appended at the end and every earlier entry is kept |
| Store.PurchasesOf | store/models.py:53-54 | an order's purchases are the rows whose foreign key names it |
| Store.DropPurchasesOf | store/serializers.py:44 | deleting an order's purchases removes those and only those |
| Store.AttachPurchases | store/serializers.py:83-86 | the order ends up with exactly the given purchases under fresh keys, and no other purchase changes |
| Store.DeleteOrder | store/models.py:53-54 | deleting an order cascades to its purchases and keeps every other row: other orders and purchases, goods, offers and the key sequences |
| Serializers.ElementCount | store/serializers.py:64-66 | the distinct values of a list number its length exactly when it has no repeats |
| Serializers.MatchCount | store/serializers.py:64-66 | the count of matching offers equals the list length iff the list has no repeats and names stored offers only |
| Serializers.ValidateOfferIds | store/serializers.py:55-70 | a list is accepted iff it is non-empty, repeat-free and names only stored offers |
| Serializers.Snapshots | store/serializers.py:83 | one snapshot per listed offer |
| Serializers.CreateMyOrder | store/serializers.py:72-88 | fails iff the key is taken; otherwise adds the order (owned by the caller unless anonymous, Draft) and exactly one purchase per listed offer, keeping every other row; no other order gains a purchase |
| Serializers.UpdateMyOrder | store/serializers.py:90-104 | a given `offer_ids` replaces all of the order's purchases with snapshots; without it purchases stay; only the e-mail field changes; purchases of other orders, goods and offers are kept and no other order gains a purchase |
| Serializers.ValidateOrderPatch | store/models.py:12-16 | an address is accepted iff it has 42 characters, a status iff it is one of the four codes |
| Serializers.ValidatePurchases | store/serializers.py:25-35 | the nested purchases are rejected iff one names an order that is not stored |
| Serializers.UpdateOrder | store/serializers.py:42-50 | fails, rolling back, iff a submitted purchase names a missing good; otherwise the order's purchases become exactly the submitted list (none when omitted), the submitted fields are written, its owner is kept, other rows are untouched, and no other order gains a purchase |
| Authentication.SubjectOf | application/authentication.py:15 | the scope subject is anonymous iff the request user is |
| Authentication.AccountPerms | application/authentication.py:19-21 | the model backend gives an inactive account nothing, and an active one its own grants plus those of each of its groups |
| Authentication.GetAllPermissions | application/authentication.py:14-21 | an anonymous object takes the placeholder's permissions once and caches them; a missing placeholder is an error |
| Authentication.InactivePlaceholderGrantsNothing | application/authentication.py:17-19 | a deactivated placeholder user leaves anonymous callers with no permission at all |
| Authentication.HasPerm | application/authentication.py:28-31 | an inactive logged-in user is refused; otherwise the answer is membership in the permission set |
| Authentication.Granted | application/authentication.py:28-31 | the set the policies consult: empty for an inactive user, the placeholder's grants for an anonymous caller |
| Authentication.HasPermIsMembership | application/authentication.py:31 | every `has_perm` answer is membership in the granted set |
| Authentication.CacheIsReused | application/authentication.py:16-20 | after the first answer, an anonymous object keeps its permissions even when the placeholder's grants change |
| Authentication.InactiveHoldsNothing | application/authentication.py:29-30 | an inactive user holds no permission whatever its grants |
| Authentication.Authenticate | application/authentication.py:23-26 | submitting the placeholder's username gives no account whatever the model backend would say; any other name gets the model backend's answer, so a login succeeds iff the name is not the placeholder's and the backend accepts it |
| Initialization.ModeratorsHoldEverything | store/initialization.py:45-71 | Moderators are given every permission of Good, Offer, Purchase and Order, the custom ones included |
| Initialization.BuyerGroupsAgree | store/initialization.py:50-75 | both buyer groups receive the same five grants, none global and none add/change/delete |
| Initialization.CreateGroups | store/initialization.py:10-17 | the three groups exist afterwards, and existing ones keep their grants |
| Initialization.CreateUsers | store/initialization.py:26-38 | the placeholder user is recreated active, without own grants, in AnonymousBuyers only |
| Initialization.FillPerms | store/initialization.py:45-75 | each seeded group gains its grants on top of what it held, other groups unchanged |
| Initialization.Populate | store/initialization.py:83-86 | after seeding, each group holds its grants and the placeholder exists |
| Initialization.BuyerPermsAreSelfService | store/initialization.py:72-75 | on the orders endpoint the buyer grants are self-service, not global |
| Initialization.AnonymousGetsBuyerPerms | store/initialization.py:30-35 | a fresh seeding grants an anonymous caller exactly the buyer permissions |
| Initialization.AnonymousBuyerSeesNoOrders | store/initialization.py:74-75 | a seeded anonymous caller lists no order on the orders endpoint and finds none |
| Initialization.BuyerSeesOwnOrders | store/initialization.py:72-73 | a seeded buyer sees exactly its own orders on the orders endpoint |

## Where the tests disagree with the code

The model follows the code in each case below.

- store/tests/test_my_orders.py:50, :75, :161 and :210-212 expect a
  registered caller to list, retrieve or update anonymous orders.
  - In store/views/my_order.py:49-50 a registered caller's scope is exactly
    its own orders.
  - `MyOrderView.RegisteredNeverSeesSessionOrders` states the code's
    behaviour.
- store/tests/test_offers.py:174-176 expects a destroy to succeed for offer
  moderators.
  - store/views/offer.py:17 lists the action as "delete", so no statement
    allows "destroy" (`OfferView.DestroyNeverAllowed`).
- store/tests/test_orders.py:101-103 expects create to be refused to holders
  of add/change/delete_order.
  - The gate at store/views/order.py:16-21 allows it.
  - What follows is the staff serializer's create, which this model leaves
    out (see below).

Two more facts about the code:

- Offers have no `enabled` field (store/models.py:39-46). Their view set
  has no scoping (store/views/offer.py:35-38), so a holder of `view_offer`
  sees every offer.
- No statement in store/views/good.py names destroy (lines 9-22), and the
  view has no destroy handler (lines 34-39). So no permission allows
  deleting a good.

## Left out

- HTTP mechanics are not modelled: status codes, pagination, filtersets,
  ordering and the ORM.
  - Outcomes are stated as refused, not in scope, or in scope, plus error
    values.
  - A refused request is 401 for anonymous callers and 403 for others; that
    mapping belongs to the framework.
- RNG seeding (`random.seed()`) is left out. The drawn ids are the oracle
  parameter `draws`, assumed to lie in the configured range.
- Concurrency between requests is left out. A collision is "the key is
  already in the table".
- Decimal prices are only copied, so they are an opaque value (`Price`).
- E-mail format validation is left out.
- The ETH address hex pattern is left out because it is unanchored and
  searched for, so it accepts any string. Only the 42-character length
  rule is modelled.
- `Order.finish` and store/utils.py are e-mail I/O and are left out.
  `Order.finish` also names a field `state` that does not exist.
- The staff-side create (`OrderSerializer` has no `create`, and its nested
  `purchases` field is writable) is left out. It belongs to the framework's
  default, which refuses writable nested fields.
- Creating and updating goods and offers is modelled as far as their gates
  (`GoodView.Allowed`, `OfferView.Allowed`) and their uniqueness
  constraints (`Models.SaveGood`, `Models.SaveOffer`) go. The framework's
  default serializer field handling is left out.
- The `pre_save` receiver that forbids saving the placeholder user is not
  part of this model.
- Superuser handling, the model backend's own caching and per-object
  permissions are not part of this model. `Authentication.AccountPerms`
  follows the model backend in two ways:
  - an inactive account holds nothing;
  - an active one holds its own grants plus its groups' grants.
- Authentication.GetAllPermissions assumes that the placeholder lookup
  reaches the project's user table. application/authentication.py:7 imports
  `django.contrib.auth.models.User` and :18 queries it, while the project
  declares its own `User` at store/models.py:19. With that model installed as
  the user model, `auth.User` is swapped out and the query would raise
  instead of finding the placeholder. The settings that decide this are not
  part of this model, so the lookup is modelled as a search of the one user
  directory.
- Django settings are not part of this model; the placeholder username and
  the allocator's attempts and range are parameters.
- Routing, app configuration, migrations and store/views/settings.py (which
  imports a serializer that does not exist) are not part of this model.
- MyOrderView.PerformCreate: a registered create that collides leaves
  `orderSeq` where it was. The database sequence may have advanced in that
  case, and the model does not say whether it does.
- The order of purchase snapshots follows the order of `offer_ids`.
  `MyOrderSerializer.create` and `update` iterate
  `Offer.objects.filter(id__in=offer_ids)` (store/serializers.py:75, :83,
  :95, :99), a query result with no `order_by`, so in the source only the
  set of purchases is fixed.
- The `post_migrate` seed is not modelled. store/apps.py:9-11 connects it
  to `populate_models` of store/signals.py:31, an older seed with groups
  `Admins` and `Buyers` and no AnonymousBuyers group. Only the `demo`
  command's seeding (store/initialization.py:83) is modelled.
- MyOrderView.UpdateRequest: the required-field checks of a full (PUT)
  update are not modelled. PUT and PATCH are both treated as partial
  updates.
- OrderView.UpdateRequest: PUT and PATCH are both treated as partial
  updates here too.
  - On PUT, `purchases`, `email` and `eth_address` are required
    (store/serializers.py:35-40), and each nested purchase must carry its
    `order`.
  - The model instead treats an omitted `purchases` as "delete all" and
    accepts a nested purchase without `order`.
- MyOrderView.PerformCreate: the `log.exception` call before the final
  re-raise (store/views/my_order.py:88) is logging I/O and is left out.

=== FILE: access_policy.dfy ===
/**
 The decision rule every access policy of the store follows: a list of
 statements, each naming actions and a condition, where a request is allowed
 iff some statement names its action and its condition holds. Every
 condition in the store is an `or` of `has_perm` calls, so a condition is the
 set of permissions any one of which satisfies it. There are no deny
 statements, so anything no statement allows is denied.
 */
module AccessPolicy {
  import opened Permissions

  /**
   The action a view is dispatched with. Unbound is the action of an HTTP
   method the view has no handler for (the framework leaves the action unset,
   and the permission check still runs first). Named is an action name that
   appears in a statement but that the framework never dispatches.
   */
  datatype Action = List | Retrieve | Create | Update | PartialUpdate | Destroy | Unbound | Named(name: string)

  /** The six handlers of a full model view set. */
  const AllHandlers: set<Action> := {List, Retrieve, Create, Update, PartialUpdate, Destroy}

  /** An allow statement: its action list and the permissions its condition accepts. */
  datatype Statement = Statement(actions: set<Action>, anyOf: set<Perm>)

  predicate Matches(st: Statement, a: Action, perms: set<Perm>)
  {
    a in st.actions && HoldsAny(perms, st.anyOf)
  }

  /** The policy's verdict: some statement names the action and its condition holds. */
  function Allows(stmts: seq<Statement>, a: Action, perms: set<Perm>): (r: bool)
    ensures r <==> exists i :: 0 <= i < |stmts| && Matches(stmts[i], a, perms)
    decreases |stmts|
  {
    if |stmts| == 0 then false
    else
      assert forall i :: 1 <= i < |stmts| ==> stmts[i] == stmts[1..][i - 1];
      Matches(stmts[0], a, perms) || Allows(stmts[1..], a, perms)
  }

  /** Granting more permissions never withdraws an allow. */
  lemma AllowsMonotone(stmts: seq<Statement>, a: Action, perms: set<Perm>, more: set<Perm>)
    requires perms <= more
    ensures Allows(stmts, a, perms) ==> Allows(stmts, a, more)
  {
    if Allows(stmts, a, perms) {
      var i :| 0 <= i < |stmts| && Matches(stmts[i], a, perms);
      assert Matches(stmts[i], a, more);
    }
  }

  /** The action the view runs for a requested handler: Unbound when its mixins do not provide it. */
  function Dispatch(handlers: set<Action>, requested: Action): (a: Action)
    ensures requested in handlers ==> a == requested
    ensures a == requested || a == Unbound
    ensures a != Unbound ==> a in handlers
  {
    if requested in handlers then requested else Unbound
  }

  /** `r` is `qs` narrowed: every row of `r` is the same row of `qs`. */
  ghost predicate SubMap<T>(r: map<int, T>, qs: map<int, T>)
  {
    forall k :: k in r ==> k in qs && r[k] == qs[k]
  }

  /** A list request either is refused (401/403) or returns the rows in scope. */
  datatype Listing<T> = Denied | Listed(rows: map<int, T>)

  /** A single-record request is refused (401/403), finds nothing in scope (404), or returns the row. */
  datatype Lookup<T> = Refused | NotInScope | InScope(row: T)

  /** The gate runs first; an allowed list returns what the scope keeps. */
  function ListRows<T>(allowed: bool, scoped: map<int, T>): Listing<T>
  {
    if allowed then Listed(scoped) else Denied
  }

  /** The gate runs first; an allowed lookup finds the key in the scoped rows or answers 404. */
  function Fetch<T>(allowed: bool, scoped: map<int, T>, id: int): Lookup<T>
  {
    if !allowed then Refused
    else if id in scoped then InScope(scoped[id])
    else NotInScope
  }
}

=== FILE: authentication.dfy ===
/**
 The authentication backend: anonymous callers take the permissions of a
 configured placeholder user, looked up once per request object and then
 cached on it; inactive logged-in users hold no permission; the placeholder's
 username can never log in.
 */
module Authentication {
  import opened Wrappers
  import opened Permissions
  import opened Models

  /** A user row as the permission backend reads it: its own permissions and its groups. */
  datatype Account = Account(uid: int, username: string, active: bool, groups: set<string>, direct: set<Perm>)

  /** The user table keyed by username (usernames are unique) and the group permission table. */
  datatype Directory = Directory(users: map<string, Account>, groups: map<string, set<Perm>>)

  /** `request.user`: an anonymous user object, with its permission cache, or a logged-in user. */
  datatype Principal = AnonymousUser(cache: Option<set<Perm>>) | LoggedIn(account: Account)

  /** `User.objects.get` found no placeholder user. */
  datatype AuthError = PlaceholderMissing

  /** The subject the views scope by. */
  function SubjectOf(u: Principal): (s: Subject)
    ensures s.Anon? <==> u.AnonymousUser?
    ensures u.LoggedIn? ==> s == User(u.account.uid)
  {
    match u
    case AnonymousUser(_) => Anon
    case LoggedIn(a) => User(a.uid)
  }

  /**
   The model backend's permission set for a user: nothing for an inactive
   account, otherwise its own grants and those of every group it belongs to.
   */
  function AccountPerms(a: Account, groups: map<string, set<Perm>>): (r: set<Perm>)
    ensures !a.active ==> r == {}
    ensures a.active ==> forall p :: p in r <==> p in a.direct || exists g :: g in a.groups && g in groups && p in groups[g]
  {
    if !a.active then {}
    else a.direct + (set g, p | g in a.groups && g in groups && p in groups[g] :: p)
  }

  /**
   `get_all_permissions`: the permission set and the request object afterwards.
   An anonymous object without a cache fetches the placeholder user by name,
   takes that user's permissions and keeps them as its cache.
   */
  function GetAllPermissions(u: Principal, dir: Directory, anonName: string): (r: Result<(set<Perm>, Principal), AuthError>)
    ensures u.LoggedIn? ==> r == Ok((AccountPerms(u.account, dir.groups), u))
    ensures u.AnonymousUser? && u.cache.Some? ==> r == Ok((u.cache.value, u))
    ensures u.AnonymousUser? && u.cache.None? ==> (r.Err? <==> anonName !in dir.users)
    ensures u.AnonymousUser? && u.cache.None? && r.Ok? ==> r.value.0 == AccountPerms(dir.users[anonName], dir.groups)
    ensures u.AnonymousUser? && r.Ok? ==> r.value.1 == AnonymousUser(Some(r.value.0))
  {
    match u
    case LoggedIn(a) => Ok((AccountPerms(a, dir.groups), u))
    case AnonymousUser(cache) =>
      if cache.Some? then Ok((cache.value, u))
      else if anonName !in dir.users then Err(PlaceholderMissing)
      else
        var perms := AccountPerms(dir.users[anonName], dir.groups);
        Ok((perms, AnonymousUser(Some(perms))))
  }

  /** `has_perm`: the answer and the request object afterwards. */
  function HasPerm(u: Principal, dir: Directory, anonName: string, p: Perm): (r: Result<(bool, Principal), AuthError>)
    ensures u.LoggedIn? && !u.account.active ==> r == Ok((false, u))
    ensures (u.AnonymousUser? || u.account.active) ==>
      (r.Ok? <==> GetAllPermissions(u, dir, anonName).Ok?)
    ensures (u.AnonymousUser? || u.account.active) && r.Ok? ==>
      r.value == (p in GetAllPermissions(u, dir, anonName).value.0, GetAllPermissions(u, dir, anonName).value.1)
  {
    if u.LoggedIn? && !u.account.active then Ok((false, u))
    else
      match GetAllPermissions(u, dir, anonName)
      case Err(e) => Err(e)
      case Ok((perms, u')) => Ok((p in perms, u'))
  }

  /** The permissions `has_perm` answers yes for: the set the access policies are evaluated against. */
  function Granted(u: Principal, dir: Directory, anonName: string): (r: Result<set<Perm>, AuthError>)
    ensures u.LoggedIn? && !u.account.active ==> r == Ok({})
    ensures u.LoggedIn? && u.account.active ==> r == Ok(AccountPerms(u.account, dir.groups))
    ensures u == AnonymousUser(None) ==>
      (r.Ok? <==> anonName in dir.users) && (r.Ok? ==> r.value == AccountPerms(dir.users[anonName], dir.groups))
  {
    if u.LoggedIn? && !u.account.active then Ok({})
    else
      match GetAllPermissions(u, dir, anonName)
      case Err(e) => Err(e)
      case Ok((perms, _)) => Ok(perms)
  }

  /** Every `has_perm` question is answered by membership in the granted set. */
  lemma HasPermIsMembership(u: Principal, dir: Directory, anonName: string, p: Perm)
    ensures HasPerm(u, dir, anonName, p).Ok? <==> Granted(u, dir, anonName).Ok?
    ensures HasPerm(u, dir, anonName, p).Ok? ==>
      HasPerm(u, dir, anonName, p).value.0 == (p in Granted(u, dir, anonName).value)
  {
  }

  /**
   Once an anonymous object has answered, later questions on it reuse the
   cached set, even if the placeholder's grants change or it disappears.
   */
  lemma CacheIsReused(dir: Directory, later: Directory, anonName: string, p: Perm)
    requires anonName in dir.users
    ensures var first := HasPerm(AnonymousUser(None), dir, anonName, p);
            first.Ok? &&
            var u := first.value.1;
            forall q :: HasPerm(u, later, anonName, q) == Ok((q in AccountPerms(dir.users[anonName], dir.groups), u))
  {
  }

  /** An inactive logged-in user holds no permission, whatever its grants. */
  lemma InactiveHoldsNothing(a: Account, dir: Directory, anonName: string, p: Perm)
    requires !a.active
    ensures HasPerm(LoggedIn(a), dir, anonName, p) == Ok((false, LoggedIn(a)))
  {
  }

  /** An inactive placeholder user leaves anonymous callers without any permission. */
  lemma InactivePlaceholderGrantsNothing(dir: Directory, anonName: string, p: Perm)
    requires anonName in dir.users && !dir.users[anonName].active
    ensures Granted(AnonymousUser(None), dir, anonName) == Ok({})
    ensures HasPerm(AnonymousUser(None), dir, anonName, p).Ok? && !HasPerm(AnonymousUser(None), dir, anonName, p).value.0
  {
  }

  /**
   `authenticate`: the placeholder's username is refused outright; any other
   username goes to the model backend, whose answer is `delegated`.
   */
  function Authenticate(username: string, anonName: string, delegated: Option<Account>): (r: Option<Account>)
    requires delegated.Some? ==> delegated.value.username == username
    ensures username == anonName ==> r.None?
    ensures r.Some? <==> username != anonName && delegated.Some?
    ensures r.Some? ==> r.value.username != anonName
    ensures username != anonName ==> r == delegated
  {
    if username == anonName then None else delegated
  }
}

=== FILE: good_view.dfy ===
/**
 The goods endpoint: a view set without a destroy handler, guarded by a
 policy with a view statement and a create/update statement, and no scoping.
 */
module GoodView {
  import opened Permissions
  import opened AccessPolicy
  import opened Models

  const Statements: seq<Statement> := [
    Statement({List, Retrieve}, {Std(View, GoodType)}),
    Statement({Create, Update, PartialUpdate}, {Std(Add, GoodType), Std(Change, GoodType)})
  ]

  /** Create, retrieve, update and list mixins only: goods are never deleted. */
  const Handlers: set<Action> := {List, Retrieve, Create, Update, PartialUpdate}

  /** The gate for a requested handler. */
  function Allowed(requested: Action, perms: set<Perm>): (r: bool)
    ensures requested in {List, Retrieve} ==> (r <==> Std(View, GoodType) in perms)
    ensures requested in {Create, Update, PartialUpdate} ==>
      (r <==> Std(Add, GoodType) in perms || Std(Change, GoodType) in perms)
    ensures requested !in {List, Retrieve, Create, Update, PartialUpdate} ==> !r
  {
    Allows(Statements, Dispatch(Handlers, requested), perms)
  }

  /** Holding `delete_good`, alone or with every other good permission, never allows a destroy. */
  lemma DestroyNeverAllowed(perms: set<Perm>)
    ensures !Allowed(Destroy, perms)
    ensures !Allowed(Destroy, AllOf(GoodType))
  {
  }

  /** Listing goods: every good is visible to a holder of `view_good`, and nobody else sees any. */
  function ListResponse(perms: set<Perm>, goods: map<int, Good>): (r: Listing<Good>)
    ensures r.Listed? <==> Std(View, GoodType) in perms
    ensures r.Listed? ==> r.rows == goods
  {
    ListRows(Allowed(List, perms), goods)
  }

  function RetrieveResponse(perms: set<Perm>, goods: map<int, Good>, id: int): (r: Lookup<Good>)
    ensures r.Refused? <==> Std(View, GoodType) !in perms
    ensures !r.Refused? ==> (r.InScope? <==> id in goods)
    ensures r.InScope? ==> r.row == goods[id]
  {
    Fetch(Allowed(Retrieve, perms), goods, id)
  }
}

=== FILE: initialization.dfy ===
/**
 The seeding the `demo` command runs after deleting the three groups and the
 placeholder: three groups, the permissions each receives, and the anonymous
 placeholder user, made a member of AnonymousBuyers.
 */
module Initialization {
  import opened Wrappers
  import opened Permissions
  import opened Models
  import opened Authentication
  import opened AccessPolicy
  import OrderView

  const Moderators := "Moderators"
  const Buyers := "Buyers"
  const AnonymousBuyers := "AnonymousBuyers"

  const GroupNames: set<string> := {Moderators, Buyers, AnonymousBuyers}

  /** What both buyer groups are given. */
  const BuyerPerms: set<Perm> := {Std(View, GoodType), Std(View, OfferType), ViewMyPurchase, ViewMyOrder, ModerateMyOrder}

  /** The permissions `_fill_perms` adds to each seeded group. */
  function Grants(group: string): (r: set<Perm>)
    requires group in GroupNames
  {
    if group == Moderators then AllOf(GoodType) + AllOf(OfferType) + AllOf(PurchaseType) + AllOf(OrderType)
    else BuyerPerms
  }

  /** Moderators are granted every permission of Good, Offer, Purchase and Order, the self-service ones included. */
  lemma ModeratorsHoldEverything(p: Perm)
    ensures p in Grants(Moderators)
  {
    match KindOf(p)
    case GoodType =>
    case OfferType =>
    case PurchaseType =>
    case OrderType =>
  }

  /** The two buyer groups receive the same grants, none of them global or mutating. */
  lemma BuyerGroupsAgree(p: Perm)
    ensures Grants(Buyers) == Grants(AnonymousBuyers) == BuyerPerms
    ensures p in BuyerPerms && p.Std? ==> p.verb == View && (p.kind == GoodType || p.kind == OfferType)
    ensures Std(View, OrderType) !in BuyerPerms && Std(View, PurchaseType) !in BuyerPerms
  {
  }

  /** The grants a group holds in `dir`, none when it does not exist. */
  function Held(dir: Directory, group: string): set<Perm>
  {
    if group in dir.groups then dir.groups[group] else {}
  }

  /** `_create_groups`: get-or-create each of the three groups by name. */
  function CreateGroups(dir: Directory): (r: Directory)
    ensures GroupNames <= r.groups.Keys
    ensures r.users == dir.users
    ensures forall g :: g in r.groups ==> r.groups[g] == Held(dir, g)
    ensures forall g :: g in r.groups <==> g in dir.groups || g in GroupNames
  {
    dir.(groups := dir.groups[Moderators := Held(dir, Moderators)]
                             [Buyers := Held(dir, Buyers)]
                             [AnonymousBuyers := Held(dir, AnonymousBuyers)])
  }

  /**
   `_create_users`: delete any user named `anonName`, create it afresh (active,
   primary key `uid`), and add it to AnonymousBuyers.
   */
  function CreateUsers(dir: Directory, anonName: string, uid: int): (r: Directory)
    ensures r.users.Keys == dir.users.Keys + {anonName}
    ensures r.users[anonName] == Account(uid, anonName, true, {AnonymousBuyers}, {})
    ensures forall n :: n in dir.users && n != anonName ==> r.users[n] == dir.users[n]
    ensures r.groups == dir.groups
  {
    dir.(users := dir.users[anonName := Account(uid, anonName, true, {AnonymousBuyers}, {})])
  }

  /** `_fill_perms`: add each seeded group's grants to whatever it already holds. */
  function FillPerms(dir: Directory): (r: Directory)
    requires GroupNames <= dir.groups.Keys
    ensures r.users == dir.users
    ensures r.groups.Keys == dir.groups.Keys
    ensures forall g :: g in GroupNames ==> r.groups[g] == dir.groups[g] + Grants(g)
    ensures forall g :: g in dir.groups && g !in GroupNames ==> r.groups[g] == dir.groups[g]
  {
    dir.(groups := dir.groups[Moderators := dir.groups[Moderators] + Grants(Moderators)]
                             [Buyers := dir.groups[Buyers] + Grants(Buyers)]
                             [AnonymousBuyers := dir.groups[AnonymousBuyers] + Grants(AnonymousBuyers)])
  }

  /** `populate_models`: groups, then users, then permissions. */
  function Populate(dir: Directory, anonName: string, uid: int): (r: Directory)
    ensures GroupNames <= r.groups.Keys
    ensures forall g :: g in GroupNames ==> r.groups[g] == Held(dir, g) + Grants(g)
    ensures anonName in r.users && r.users[anonName] == Account(uid, anonName, true, {AnonymousBuyers}, {})
  {
    FillPerms(CreateUsers(CreateGroups(dir), anonName, uid))
  }

  /** On the orders endpoint the buyer grants are self-service only. */
  lemma BuyerPermsAreSelfService()
    ensures !OrderView.Global(BuyerPerms) && OrderView.SelfService(BuyerPerms)
    ensures OrderView.Allowed(List, BuyerPerms)
  {
    assert !HoldsAny(BuyerPerms, OrderView.ModeratePerms);
  }

  /** A buyer group seeded into a directory where it held nothing holds exactly the buyer permissions. */
  lemma SeededGroup(dir: Directory, anonName: string, uid: int, g: string)
    requires g == Buyers || g == AnonymousBuyers
    requires Held(dir, g) == {}
    ensures g in Populate(dir, anonName, uid).groups && Populate(dir, anonName, uid).groups[g] == BuyerPerms
  {
    assert g != Moderators;
  }

  /** A member of one group, without grants of its own, holds what that group holds. */
  lemma SingleGroupPerms(a: Account, groups: map<string, set<Perm>>, g: string)
    requires a.active && a.direct == {} && a.groups == {g} && g in groups
    ensures AccountPerms(a, groups) == groups[g]
  {
  }

  /**
   Seeded into a directory where none of the three groups held anything yet,
   an anonymous caller is granted exactly the buyer permissions.
   */
  lemma AnonymousGetsBuyerPerms(dir: Directory, anonName: string, uid: int)
    requires forall g :: g in GroupNames ==> Held(dir, g) == {}
    ensures Granted(AnonymousUser(None), Populate(dir, anonName, uid), anonName) == Ok(BuyerPerms)
  {
    var r := Populate(dir, anonName, uid);
    SeededGroup(dir, anonName, uid, AnonymousBuyers);
    SingleGroupPerms(r.users[anonName], r.groups, AnonymousBuyers);
  }

  /** Seeded that way, the orders endpoint lists nothing to an anonymous caller and finds no order for it. */
  lemma AnonymousBuyerSeesNoOrders(dir: Directory, anonName: string, uid: int, qs: map<int, Order>, id: int)
    requires forall g :: g in GroupNames ==> Held(dir, g) == {}
    ensures var perms := Granted(AnonymousUser(None), Populate(dir, anonName, uid), anonName).value;
            && OrderView.ListResponse(Anon, perms, qs) == Listed(map[])
            && OrderView.RetrieveResponse(Anon, perms, qs, id) == NotInScope
  {
    AnonymousGetsBuyerPerms(dir, anonName, uid);
    BuyerPermsAreSelfService();
    OrderView.AnonymousSelfServiceListsNothing(BuyerPerms, qs);
  }

  /**
   An active member of Buyers alone, with no grants of its own, is granted
   the buyer permissions, and with them sees exactly its own orders on the
   orders endpoint.
   */
  lemma BuyerSeesOwnOrders(dir: Directory, anonName: string, uid: int, buyer: Account, qs: map<int, Order>)
    requires forall g :: g in GroupNames ==> Held(dir, g) == {}
    requires buyer.active && buyer.groups == {Buyers} && buyer.direct == {}
    ensures Granted(LoggedIn(buyer), Populate(dir, anonName, uid), anonName) == Ok(BuyerPerms)
    ensures OrderView.ListResponse(User(buyer.uid), BuyerPerms, qs).Listed?
    ensures forall k :: k in OrderView.ListResponse(User(buyer.uid), BuyerPerms, qs).rows
                 <==> k in qs && qs[k].owner == Registered(buyer.uid)
  {
    var r := Populate(dir, anonName, uid);
    SeededGroup(dir, anonName, uid, Buyers);
    SingleGroupPerms(buyer, r.groups, Buyers);
    BuyerPermsAreSelfService();
    OrderView.SelfServiceListsOwn(buyer.uid, BuyerPerms, qs);
  }
}

=== FILE: models.dfy ===
/**
 The records of the store: goods, offers, purchases and orders, the owner of
 an order, and the field rules the models declare (status codes, the length
 of an Ethereum address, the uniqueness constraints).
 */
module Models {
  import opened Wrappers

  /** A DecimalField(max_digits=12, decimal_places=6), held as millionths. Prices are only copied. */
  datatype Price = Price(micros: int)

  /** The one error the database raises in this core: a unique or primary-key constraint was violated. */
  datatype DbError = IntegrityError

  datatype Good = Good(name: string)

  datatype Offer = Offer(good: int, price: Price)

  /** A price snapshot of a good; `order` is None until the purchase is attached to an order. */
  datatype Purchase = Purchase(good: int, price: Price, order: Option<int>)

  datatype Status = Draft | Processing | Canceled | Finished

  /** Who is making a request: Django's AnonymousUser or a logged-in user. */
  datatype Subject = Anon | User(uid: int)

  /** The `user` column of an order: a user id, or null for an anonymous order. */
  datatype Owner = Anonymous | Registered(uid: int)

  datatype Order = Order(owner: Owner, email: string, ethAddress: string, status: Status)

  /** The length both min- and max-length validators of an ETHAddress field demand. */
  const AddressLength := 42

  /** The status a new order takes when none is given. */
  const DefaultStatus := Draft

  /** The two-letter code stored for each status. */
  function Code(s: Status): string
  {
    match s
    case Draft => "DR"
    case Processing => "PR"
    case Canceled => "CA"
    case Finished => "FI"
  }

  /** The choice validation of the status field: only the four codes are accepted. */
  function StatusOfCode(c: string): (r: Option<Status>)
    ensures r.Some? ==> Code(r.value) == c
    ensures r.None? ==> forall s: Status :: Code(s) != c
  {
    if c == "DR" then Some(Draft)
    else if c == "PR" then Some(Processing)
    else if c == "CA" then Some(Canceled)
    else if c == "FI" then Some(Finished)
    else None
  }

  lemma CodeRoundTrip(s: Status)
    ensures StatusOfCode(Code(s)) == Some(s)
  {
  }

  /**
   The validators of an ETHAddress field. The hex pattern is not anchored and
   is searched for, so it matches every string; only the length decides.
   */
  predicate ValidEthAddress(a: string)
  {
    |a| == AddressLength
  }

  /** The owner an order created by `s` is stored with: the user, or null when anonymous. */
  function OwnerFor(s: Subject): (o: Owner)
    ensures o.Registered? <==> s.User?
    ensures s.User? ==> o == Registered(s.uid)
  {
    match s
    case Anon => Anonymous
    case User(uid) => Registered(uid)
  }

  /** An order as `Order.objects.create` stores it: e-mail given, address empty, status defaulted. */
  function NewOrder(owner: Owner, email: string): (o: Order)
    ensures o.owner == owner && o.email == email
    ensures o.status == Draft
  {
    Order(owner, email, "", DefaultStatus)
  }

  /** A purchase snapshot of an offer, not yet attached to an order. */
  function FromOffer(offer: Offer): (p: Purchase)
    ensures p.good == offer.good && p.price == offer.price
    ensures p.order.None?
  {
    Purchase(offer.good, offer.price, None)
  }

  /** The `unique=True` constraint on Good.name. */
  ghost predicate GoodNamesUnique(goods: map<int, Good>)
  {
    forall a, b :: a in goods && b in goods && goods[a].name == goods[b].name ==> a == b
  }

  /** The `unique_together = ('good', 'price')` constraint on Offer. */
  ghost predicate OfferPairsUnique(offers: map<int, Offer>)
  {
    forall a, b :: a in offers && b in offers && offers[a] == offers[b] ==> a == b
  }

  /** Saving a good under primary key `id` (insert or update), rejected when another good has its name. */
  function SaveGood(goods: map<int, Good>, id: int, g: Good): (r: Result<map<int, Good>, DbError>)
    ensures r.Err? <==> exists k :: k in goods && k != id && goods[k].name == g.name
    ensures r.Ok? ==> r.value == goods[id := g]
    ensures r.Ok? && GoodNamesUnique(goods) ==> GoodNamesUnique(r.value)
  {
    if exists k :: k in goods && k != id && goods[k].name == g.name then Err(IntegrityError)
    else Ok(goods[id := g])
  }

  /** Saving an offer under primary key `id`, rejected when another offer has the same good and price. */
  function SaveOffer(offers: map<int, Offer>, id: int, o: Offer): (r: Result<map<int, Offer>, DbError>)
    ensures r.Err? <==> exists k :: k in offers && k != id && offers[k] == o
    ensures r.Ok? ==> r.value == offers[id := o]
    ensures r.Ok? && OfferPairsUnique(offers) ==> OfferPairsUnique(r.value)
  {
    if exists k :: k in offers && k != id && offers[k] == o then Err(IntegrityError)
    else Ok(offers[id := o])
  }
}

=== FILE: my_order_view.dfy ===
/**
 The self-service orders endpoint (`buyer/orders`). A logged-in caller sees
 and changes its own orders. An anonymous caller sees only anonymous orders:
 its list shows those whose ids its session holds, while every other action
 reaches any anonymous order by id. An anonymous create draws the new
 order's id at random from a configured range, retrying a bounded number of
 times on a key collision, and records the id in the session.
 */
module MyOrderView {
  import opened Wrappers
  import opened Permissions
  import opened AccessPolicy
  import opened Models
  import opened Sessions
  import opened Store
  import opened Serializers
  import opened Requests

  const Mutations: set<Action> := {Create, Update, PartialUpdate, Destroy}

  const Statements: seq<Statement> := [
    Statement({List, Retrieve}, {ViewMyOrder}),
    Statement(Mutations, {ModerateMyOrder})
  ]

  function Allowed(requested: Action, perms: set<Perm>): (r: bool)
    ensures requested in {List, Retrieve} ==> (r <==> ViewMyOrder in perms)
    ensures requested in Mutations ==> (r <==> ModerateMyOrder in perms)
    ensures requested !in AllHandlers ==> !r
  {
    var a := Dispatch(AllHandlers, requested);
    assert Matches(Statements[1], a, perms) <==> a in Mutations && ModerateMyOrder in perms;
    Allows(Statements, a, perms)
  }

  function Scope(subject: Subject, action: Action, session: Session, qs: map<int, Order>): (r: map<int, Order>)
    ensures SubMap(r, qs)
    ensures subject.Anon? ==> forall k :: k in r ==> r[k].owner == Anonymous
    ensures subject.Anon? && action == List ==>
      forall k :: k in r <==> k in qs && qs[k].owner == Anonymous && k in Ids(session)
    ensures subject.Anon? && action != List ==> forall k :: k in r <==> k in qs && qs[k].owner == Anonymous
    ensures subject.User? ==> forall k :: k in r <==> k in qs && qs[k].owner == Registered(subject.uid)
  {
    match subject
    case Anon =>
      var anonymous := map k | k in qs && qs[k].owner == Anonymous :: qs[k];
      if action == List then map k | k in anonymous && k in Ids(session) :: anonymous[k]
      else anonymous
    case User(uid) => map k | k in qs && qs[k].owner == Registered(uid) :: qs[k]
  }

  /** A logged-in caller's scope does not depend on the session at all. */
  lemma RegisteredIgnoresSession(uid: int, action: Action, s1: Session, s2: Session, qs: map<int, Order>)
    ensures Scope(User(uid), action, s1, qs) == Scope(User(uid), action, s2, qs)
  {
  }

  /** An anonymous list is the part of what it could retrieve that its session names; none without the key. */
  lemma AnonymousListWithinRetrieve(session: Session, qs: map<int, Order>)
    ensures SubMap(Scope(Anon, List, session, qs), Scope(Anon, Retrieve, session, qs))
    ensures session.None? ==> Scope(Anon, List, session, qs) == map[]
  {
  }

  /** Listing one's orders: the gate decides, and an allowed caller gets its list scope. */
  function ListResponse(subject: Subject, perms: set<Perm>, session: Session, qs: map<int, Order>): (r: Listing<Order>)
    ensures r.Listed? <==> ViewMyOrder in perms
    ensures r.Listed? ==> SubMap(r.rows, qs) && r.rows == Scope(subject, List, session, qs)
  {
    ListRows(Allowed(List, perms), Scope(subject, List, session, qs))
  }

  /** Fetching one of one's orders: refused by the gate, 404 outside the scope, otherwise the stored row. */
  function RetrieveResponse(subject: Subject, perms: set<Perm>, session: Session, qs: map<int, Order>, id: int): (r: Lookup<Order>)
    ensures r.Refused? <==> ViewMyOrder !in perms
    ensures !r.Refused? ==> (r.InScope? <==> id in qs && qs[id].owner == OwnerFor(subject))
    ensures r.InScope? ==> r.row == qs[id]
  {
    Fetch(Allowed(Retrieve, perms), Scope(subject, Retrieve, session, qs), id)
  }

  /**
   A logged-in caller does not see an anonymous order, even one whose id its
   session holds.
   */
  lemma RegisteredNeverSeesSessionOrders(uid: int, perms: set<Perm>, id: int, o: Order)
    requires ViewMyOrder in perms && o.owner == Anonymous
    ensures ListResponse(User(uid), perms, Some([id]), map[id := o]) == Listed(map[])
    ensures RetrieveResponse(User(uid), perms, Some([id]), map[id := o], id) == NotInScope
  {
  }

  /**
   After an anonymous create under `id` and the session append, the caller's
   list shows the new order and still shows everything it showed before.
   */
  lemma AnonymousCreateIsListed(s: Store, email: string, ids: seq<int>, id: int, session: Session)
    requires Wf(s) && ValidOfferIds(ids, s.offers)
    requires id !in s.orders
    ensures CreateMyOrder(s, Anon, email, ids, id).Ok?
    ensures var after := CreateMyOrder(s, Anon, email, ids, id).value.orders;
            && id in Scope(Anon, List, Bind(session, id), after)
            && SubMap(Scope(Anon, List, session, s.orders), Scope(Anon, List, Bind(session, id), after))
  {
    var after := CreateMyOrder(s, Anon, email, ids, id).value.orders;
    assert Ids(Bind(session, id)) == Ids(session) + [id];
  }

  /** The settings the allocator reads: the attempt budget and the inclusive id range. */
  datatype IdConfig = IdConfig(attempts: nat, lo: int, hi: int)

  /** The oracle supplies enough draws, each within the inclusive range, whenever the range is not empty. */
  ghost predicate DrawsFit(cfg: IdConfig, draws: seq<int>)
  {
    cfg.lo <= cfg.hi ==> |draws| >= cfg.attempts && forall k :: 0 <= k < cfg.attempts ==> cfg.lo <= draws[k] <= cfg.hi
  }

  /** The index of the first draw not already taken, if any: the attempt that succeeds. */
  function FirstFresh(draws: seq<int>, taken: set<int>): (r: Option<nat>)
    ensures r.Some? ==> r.value < |draws| && draws[r.value] !in taken
    ensures r.Some? ==> forall j :: 0 <= j < r.value ==> draws[j] in taken
    ensures r.None? ==> forall j :: 0 <= j < |draws| ==> draws[j] in taken
    decreases |draws|
  {
    if |draws| == 0 then None
    else if draws[0] !in taken then Some(0)
    else
      match FirstFresh(draws[1..], taken)
      case None => None
      case Some(j) => Some(j + 1)
  }

  /**
   `perform_create`. A logged-in caller's order takes the next key of the
   order sequence and the session is left alone. An anonymous caller's order
   is tried under each drawn id in turn, at most `cfg.attempts` times, until
   one is free; its id is then appended to the session. When no attempt
   succeeds nothing is stored and the session is untouched.
   */
  method PerformCreate(subject: Subject, session: Session, s: Store, email: string, ids: seq<int>,
                       cfg: IdConfig, draws: seq<int>) returns (resp: Response)
    requires Wf(s) && ValidOfferIds(ids, s.offers)
    requires DrawsFit(cfg, draws)
    ensures Wf(resp.store)
    ensures resp.result.Err? ==> resp.store == s && resp.session == session
    ensures resp.result.Ok? ==> resp.result.value !in s.orders && resp.result.value in resp.store.orders
    ensures resp.result.Ok? ==>
      resp.store.orders[resp.result.value] == NewOrder(OwnerFor(subject), email)
    ensures resp.result.Ok? ==> HoldsExactly(resp.store, resp.result.value, s.purchaseSeq, Snapshots(ids, s.offers))
    ensures resp.result.Ok? ==>
      && resp.store.orders == s.orders[resp.result.value := NewOrder(OwnerFor(subject), email)]
      && resp.store.goods == s.goods && resp.store.offers == s.offers
      && (forall k :: k in s.purchases ==> k in resp.store.purchases && resp.store.purchases[k] == s.purchases[k])
      && NewPurchasesBelongTo(s, resp.store, resp.result.value)
    ensures subject.User? ==> resp.session == session
    ensures subject.User? ==> (resp.result.Ok? <==> s.orderSeq !in s.orders)
    ensures subject.User? && resp.result.Ok? ==> resp.result.value == s.orderSeq
    ensures subject.Anon? && cfg.attempts > 0 && cfg.lo > cfg.hi ==> resp.result == Err(EmptyRange)
    ensures subject.Anon? && cfg.attempts == 0 ==> resp.result == Err(Exhausted)
    ensures subject.Anon? && cfg.lo <= cfg.hi ==>
      match FirstFresh(draws[..cfg.attempts], s.orders.Keys)
      case None => resp.result == Err(Exhausted)
      case Some(j) => resp.result == Ok(draws[j]) && resp.session == Bind(session, draws[j])
    ensures subject.Anon? && resp.result.Ok? ==> cfg.lo <= resp.result.value <= cfg.hi
  {
    if subject.User? {
      var created := CreateMyOrder(s, subject, email, ids, s.orderSeq);
      if created.Err? {
        return Response(s, session, Err(Collision));
      }
      return Response(created.value.(orderSeq := s.orderSeq + 1), session, Ok(s.orderSeq));
    }
    if cfg.attempts > 0 && cfg.lo > cfg.hi {
      return Response(s, session, Err(EmptyRange));
    }
    var k := 0;
    while k < cfg.attempts
      invariant 0 <= k <= cfg.attempts
      invariant forall j :: 0 <= j < k ==> draws[j] in s.orders
    {
      var id := draws[k];
      var created := CreateMyOrder(s, subject, email, ids, id);
      if created.Ok? {
        assert FirstFresh(draws[..cfg.attempts], s.orders.Keys) == Some(k);
        return Response(created.value, Bind(session, id), Ok(id));
      }
      k := k + 1;
    }
    assert FirstFresh(draws[..cfg.attempts], s.orders.Keys) == None;
    return Response(s, session, Err(Exhausted));
  }

  /**
   The update request: the gate, then the lookup in the caller's scope (which
   for an anonymous caller is every anonymous order, whatever its session
   holds), then validation of `offer_ids` when given, then the serializer.
   */
  function UpdateRequest(subject: Subject, perms: set<Perm>, session: Session, s: Store, id: int,
                         email: Option<string>, ids: Option<seq<int>>): (resp: Response)
    requires Wf(s)
    ensures Wf(resp.store) && resp.session == session
    ensures resp.result.Err? ==> resp.store == s
    ensures ModerateMyOrder !in perms ==> resp.result == Err(Forbidden)
    ensures resp.result.Ok? ==> resp.result.value == id && id in s.orders
    ensures resp.result.Ok? ==> s.orders[id].owner == OwnerFor(subject)
    ensures resp.result.Ok? && ids.Some? ==> ValidOfferIds(ids.value, s.offers)
    ensures ModerateMyOrder in perms && id in s.orders && s.orders[id].owner == OwnerFor(subject)
            && ids.Some? && ValidateOfferIds(ids.value, s.offers).Err? ==>
      resp.result == Err(Rejected(ValidateOfferIds(ids.value, s.offers).error))
    ensures ModerateMyOrder in perms && id in s.orders && s.orders[id].owner == OwnerFor(subject)
            && (ids.Some? ==> ValidOfferIds(ids.value, s.offers)) ==>
      resp.result == Ok(id) && resp.store == UpdateMyOrder(s, id, email, ids)
  {
    if !Allowed(Update, perms) then Response(s, session, Err(Forbidden))
    else if id !in Scope(subject, Update, session, s.orders) then Response(s, session, Err(NotFound))
    else if ids.Some? && ValidateOfferIds(ids.value, s.offers).Err? then
      Response(s, session, Err(Rejected(ValidateOfferIds(ids.value, s.offers).error)))
    else Response(UpdateMyOrder(s, id, email, ids), session, Ok(id))
  }

  /** The destroy request: the gate, the lookup in the caller's scope, then the delete with its purchases. */
  function DestroyRequest(subject: Subject, perms: set<Perm>, session: Session, s: Store, id: int): (resp: Response)
    requires Wf(s)
    ensures Wf(resp.store) && resp.session == session
    ensures resp.result.Err? ==> resp.store == s
    ensures resp.result.Ok? <==> ModerateMyOrder in perms && id in s.orders && s.orders[id].owner == OwnerFor(subject)
    ensures resp.result.Ok? ==> resp.store == DeleteOrder(s, id)
  {
    if !Allowed(Destroy, perms) then Response(s, session, Err(Forbidden))
    else if id !in Scope(subject, Destroy, session, s.orders) then Response(s, session, Err(NotFound))
    else Response(DeleteOrder(s, id), session, Ok(id))
  }

  /**
   The create request: the gate, then the serializer's validation of
   `offer_ids`, then `perform_create`.
   */
  method CreateRequest(subject: Subject, perms: set<Perm>, session: Session, s: Store, email: string,
                       ids: seq<int>, cfg: IdConfig, draws: seq<int>) returns (resp: Response)
    requires Wf(s) && DrawsFit(cfg, draws)
    ensures Wf(resp.store)
    ensures resp.result.Err? ==> resp.store == s && resp.session == session
    ensures ModerateMyOrder !in perms ==> resp.result == Err(Forbidden)
    ensures ModerateMyOrder in perms && ValidateOfferIds(ids, s.offers).Err? ==>
      resp.result == Err(Rejected(ValidateOfferIds(ids, s.offers).error))
    ensures resp.result.Ok? ==> ValidOfferIds(ids, s.offers) && resp.result.value !in s.orders
    ensures resp.result.Ok? ==> HoldsExactly(resp.store, resp.result.value, s.purchaseSeq, Snapshots(ids, s.offers))
    ensures resp.result.Ok? ==>
      && resp.store.orders == s.orders[resp.result.value := NewOrder(OwnerFor(subject), email)]
      && resp.store.goods == s.goods && resp.store.offers == s.offers
      && (forall k :: k in s.purchases ==> k in resp.store.purchases && resp.store.purchases[k] == s.purchases[k])
      && NewPurchasesBelongTo(s, resp.store, resp.result.value)
    ensures subject.User? ==> resp.session == session
    ensures ModerateMyOrder in perms && ValidOfferIds(ids, s.offers) ==>
      && (subject.User? ==> (resp.result.Ok? <==> s.orderSeq !in s.orders))
      && (subject.User? && resp.result.Ok? ==> resp.result.value == s.orderSeq)
      && (subject.Anon? && cfg.attempts > 0 && cfg.lo > cfg.hi ==> resp.result == Err(EmptyRange))
      && (subject.Anon? && cfg.attempts == 0 ==> resp.result == Err(Exhausted))
      && (subject.Anon? && cfg.lo <= cfg.hi ==>
            match FirstFresh(draws[..cfg.attempts], s.orders.Keys)
            case None => resp.result == Err(Exhausted)
            case Some(j) => resp.result == Ok(draws[j]) && resp.session == Bind(session, draws[j]))
  {
    if !Allowed(Create, perms) {
      return Response(s, session, Err(Forbidden));
    }
    var checked := ValidateOfferIds(ids, s.offers);
    if checked.Err? {
      return Response(s, session, Err(Rejected(checked.error)));
    }
    resp := PerformCreate(subject, session, s, email, ids, cfg, draws);
  }
}

=== FILE: offer_view.dfy ===
/**
 The offers endpoint: a full model view set guarded by a view statement and
 a mutate statement, with no scoping. The mutate statement lists the action
 "delete", which is not the name of any handler (the destroy handler's action
 is "destroy"), so the statement never allows a destroy.
 */
module OfferView {
  import opened Permissions
  import opened AccessPolicy
  import opened Models

  /** The action list of the mutate statement as written. */
  const MutateActions: set<Action> := {Create, Update, PartialUpdate, Named("delete")}

  const ModeratePerms: set<Perm> := {Std(Add, OfferType), Std(Change, OfferType), Std(Delete, OfferType)}

  const Statements: seq<Statement> := [
    Statement({List, Retrieve}, {Std(View, OfferType)}),
    Statement(MutateActions, ModeratePerms)
  ]

  function Allowed(requested: Action, perms: set<Perm>): (r: bool)
    ensures requested in {List, Retrieve} ==> (r <==> Std(View, OfferType) in perms)
    ensures requested in {Create, Update, PartialUpdate} ==>
      (r <==> Std(Add, OfferType) in perms || Std(Change, OfferType) in perms || Std(Delete, OfferType) in perms)
    ensures requested !in {List, Retrieve, Create, Update, PartialUpdate} ==> !r
  {
    var a := Dispatch(AllHandlers, requested);
    assert HoldsAny(perms, ModeratePerms) <==>
      Std(Add, OfferType) in perms || Std(Change, OfferType) in perms || Std(Delete, OfferType) in perms;
    assert Matches(Statements[0], a, perms) <==> a in {List, Retrieve} && Std(View, OfferType) in perms;
    assert Matches(Statements[1], a, perms) <==> a in MutateActions && HoldsAny(perms, ModeratePerms);
    Allows(Statements, a, perms)
  }

  /** A destroy is refused even to a caller holding every offer permission. */
  lemma DestroyNeverAllowed(perms: set<Perm>)
    ensures !Allowed(Destroy, perms)
    ensures !Allowed(Destroy, AllOf(OfferType))
  {
  }

  /** Listing offers: every offer is visible to a holder of `view_offer`. */
  function ListResponse(perms: set<Perm>, offers: map<int, Offer>): (r: Listing<Offer>)
    ensures r.Listed? <==> Std(View, OfferType) in perms
    ensures r.Listed? ==> r.rows == offers
  {
    ListRows(Allowed(List, perms), offers)
  }

  function RetrieveResponse(perms: set<Perm>, offers: map<int, Offer>, id: int): (r: Lookup<Offer>)
    ensures r.Refused? <==> Std(View, OfferType) !in perms
    ensures !r.Refused? ==> (r.InScope? <==> id in offers)
    ensures r.InScope? ==> r.row == offers[id]
  {
    Fetch(Allowed(Retrieve, perms), offers, id)
  }
}

=== FILE: order_view.dfy ===
/**
 The orders endpoint for staff and buyers alike: a full model view set whose
 gate accepts either a global order permission or one of the two self-service
 permissions, and whose scope shows everything to global holders, a
 registered caller's own orders to self-service holders, and nothing to
 anyone else (an anonymous caller included).
 */
module OrderView {
  import opened Permissions
  import opened AccessPolicy
  import opened Wrappers
  import opened Models
  import opened Sessions
  import opened Store
  import opened Serializers
  import opened Requests

  const Mutations: set<Action> := {Create, Update, PartialUpdate, Destroy}

  /** `add_order`, `change_order`, `delete_order`: the condition `can_moderate_order`. */
  const ModeratePerms: set<Perm> := {Std(Add, OrderType), Std(Change, OrderType), Std(Delete, OrderType)}

  const Statements: seq<Statement> := [
    Statement({List, Retrieve}, {Std(View, OrderType)}),
    Statement(Mutations, ModeratePerms),
    Statement({List, Retrieve}, {ViewMyOrder}),
    Statement(Mutations, {ModerateMyOrder})
  ]

  /** The caller holds a permission that shows every order. */
  predicate Global(perms: set<Perm>)
  {
    Std(View, OrderType) in perms || HoldsAny(perms, ModeratePerms)
  }

  /** The caller holds one of the self-service permissions. */
  predicate SelfService(perms: set<Perm>)
  {
    ViewMyOrder in perms || ModerateMyOrder in perms
  }

  function Allowed(requested: Action, perms: set<Perm>): (r: bool)
    ensures requested in {List, Retrieve} ==> (r <==> Std(View, OrderType) in perms || ViewMyOrder in perms)
    ensures requested in Mutations ==>
      (r <==> Std(Add, OrderType) in perms || Std(Change, OrderType) in perms || Std(Delete, OrderType) in perms
              || ModerateMyOrder in perms)
    ensures requested !in AllHandlers ==> !r
  {
    var a := Dispatch(AllHandlers, requested);
    assert HoldsAny(perms, ModeratePerms) <==>
      Std(Add, OrderType) in perms || Std(Change, OrderType) in perms || Std(Delete, OrderType) in perms;
    assert Matches(Statements[0], a, perms) <==> a in {List, Retrieve} && Std(View, OrderType) in perms;
    assert Matches(Statements[1], a, perms) <==> a in Mutations && HoldsAny(perms, ModeratePerms);
    assert Matches(Statements[2], a, perms) <==> a in {List, Retrieve} && ViewMyOrder in perms;
    assert Matches(Statements[3], a, perms) <==> a in Mutations && ModerateMyOrder in perms;
    Allows(Statements, a, perms)
  }

  function Scope(subject: Subject, perms: set<Perm>, qs: map<int, Order>): (r: map<int, Order>)
    ensures SubMap(r, qs)
    ensures Global(perms) ==> r == qs
    ensures !Global(perms) && (subject.Anon? || !SelfService(perms)) ==> r == map[]
    ensures !Global(perms) && SelfService(perms) && subject.User? ==>
      forall k :: k in r <==> k in qs && qs[k].owner == Registered(subject.uid)
  {
    if Global(perms) then qs
    else if SelfService(perms) && subject.User? then
      map k | k in qs && qs[k].owner == Registered(subject.uid) :: qs[k]
    else map[]
  }

  /** Granting more permissions only widens what a caller sees. */
  lemma ScopeMonotone(subject: Subject, perms: set<Perm>, more: set<Perm>, qs: map<int, Order>)
    requires perms <= more
    ensures SubMap(Scope(subject, perms, qs), Scope(subject, more, qs))
  {
  }

  /** Listing orders: the gate decides, and an allowed caller gets its scope. */
  function ListResponse(subject: Subject, perms: set<Perm>, qs: map<int, Order>): (r: Listing<Order>)
    ensures r.Listed? <==> Std(View, OrderType) in perms || ViewMyOrder in perms
    ensures r.Listed? ==> SubMap(r.rows, qs) && r.rows == Scope(subject, perms, qs)
  {
    ListRows(Allowed(List, perms), Scope(subject, perms, qs))
  }

  /** Fetching one order: refused by the gate, 404 outside the scope, otherwise the stored row. */
  function RetrieveResponse(subject: Subject, perms: set<Perm>, qs: map<int, Order>, id: int): (r: Lookup<Order>)
    ensures r.Refused? <==> Std(View, OrderType) !in perms && ViewMyOrder !in perms
    ensures !r.Refused? ==> (r.InScope? <==> id in Scope(subject, perms, qs))
    ensures r.InScope? ==> id in qs && r.row == qs[id]
  {
    Fetch(Allowed(Retrieve, perms), Scope(subject, perms, qs), id)
  }

  /** An anonymous caller holding `view_my_order` passes the gate but lists no order at all. */
  lemma AnonymousSelfServiceListsNothing(perms: set<Perm>, qs: map<int, Order>)
    requires ViewMyOrder in perms && !Global(perms)
    ensures ListResponse(Anon, perms, qs) == Listed(map[])
  {
  }

  /** A registered self-service caller lists exactly its own orders. */
  lemma SelfServiceListsOwn(uid: int, perms: set<Perm>, qs: map<int, Order>)
    requires ViewMyOrder in perms && !Global(perms)
    ensures ListResponse(User(uid), perms, qs).Listed?
    ensures forall k :: k in ListResponse(User(uid), perms, qs).rows <==> k in qs && qs[k].owner == Registered(uid)
  {
  }

  /** A registered self-service caller asking for someone else's order gets 404, not 403. */
  lemma OthersOrderNotInScope(uid: int, perms: set<Perm>, qs: map<int, Order>, id: int)
    requires ViewMyOrder in perms && !Global(perms)
    requires id in qs && qs[id].owner != Registered(uid)
    ensures RetrieveResponse(User(uid), perms, qs, id) == NotInScope
  {
  }

  /**
   The staff-side update request: the gate, the lookup in the caller's scope,
   validation of the fields and of the nested purchases, then the serializer,
   which replaces the order's purchases with the submitted list and never
   changes its owner.
   */
  function UpdateRequest(subject: Subject, perms: set<Perm>, session: Session, s: Store, id: int,
                         email: Option<string>, ethAddress: Option<string>, statusCode: Option<string>,
                         purchases: Option<seq<Purchase>>): (resp: Response)
    requires Wf(s)
    ensures Wf(resp.store) && resp.session == session
    ensures resp.result.Err? ==> resp.store == s
    ensures !Allowed(Update, perms) ==> resp.result == Err(Forbidden)
    ensures Allowed(Update, perms) && id !in Scope(subject, perms, s.orders) ==> resp.result == Err(NotFound)
    ensures Allowed(Update, perms) && id in Scope(subject, perms, s.orders)
            && ValidateOrderPatch(email, ethAddress, statusCode).Err? ==>
      resp.result == Err(Rejected(ValidateOrderPatch(email, ethAddress, statusCode).error))
    ensures Allowed(Update, perms) && id in Scope(subject, perms, s.orders)
            && ValidateOrderPatch(email, ethAddress, statusCode).Ok?
            && purchases.Some? && ValidatePurchases(purchases.value, s.orders).Err? ==>
      resp.result == Err(Rejected(ValidatePurchases(purchases.value, s.orders).error))
    ensures resp.result.Ok? <==>
      Allowed(Update, perms) && id in Scope(subject, perms, s.orders)
      && ValidateOrderPatch(email, ethAddress, statusCode).Ok?
      && (purchases.Some? ==> ValidatePurchases(purchases.value, s.orders).Ok?)
      && GoodsExist(Patched(purchases, []), s.goods)
    ensures resp.result.Ok? ==> resp.result.value == id && id in s.orders && id in Scope(subject, perms, s.orders)
    ensures resp.result.Ok? ==>
      && resp.store.orders.Keys == s.orders.Keys
      && (forall k :: k in s.orders && k != id ==> resp.store.orders[k] == s.orders[k])
      && resp.store.orders[id].owner == s.orders[id].owner
      && resp.store.orders[id].email == Patched(email, s.orders[id].email)
      && resp.store.orders[id].ethAddress == Patched(ethAddress, s.orders[id].ethAddress)
      && (statusCode.Some? ==> Code(resp.store.orders[id].status) == statusCode.value)
      && (statusCode.None? ==> resp.store.orders[id].status == s.orders[id].status)
    ensures resp.result.Ok? ==> HoldsExactly(resp.store, id, s.purchaseSeq, Patched(purchases, []))
    ensures resp.result.Ok? ==> NewPurchasesBelongTo(s, resp.store, id)
    ensures resp.result.Ok? ==> forall k :: k in s.purchases && s.purchases[k].order != Some(id) ==>
      k in resp.store.purchases && resp.store.purchases[k] == s.purchases[k]
    ensures resp.result.Ok? ==> resp.store.goods == s.goods && resp.store.offers == s.offers
    ensures resp.result.Ok? ==> purchases.Some? ==> ValidatePurchases(purchases.value, s.orders).Ok?
    ensures resp.result == Err(MissingGood) <==>
      Allowed(Update, perms) && id in Scope(subject, perms, s.orders)
      && ValidateOrderPatch(email, ethAddress, statusCode).Ok?
      && (purchases.Some? ==> ValidatePurchases(purchases.value, s.orders).Ok?)
      && !GoodsExist(Patched(purchases, []), s.goods)
    ensures HoldsAny(perms, ModeratePerms) && id in s.orders && ValidateOrderPatch(email, ethAddress, statusCode).Ok?
            && (purchases.Some? ==> ValidatePurchases(purchases.value, s.orders).Ok?)
            && GoodsExist(Patched(purchases, []), s.goods) ==>
      resp.result == Ok(id)
  {
    if !Allowed(Update, perms) then Response(s, session, Err(Forbidden))
    else if id !in Scope(subject, perms, s.orders) then Response(s, session, Err(NotFound))
    else
      match ValidateOrderPatch(email, ethAddress, statusCode)
      case Err(e) => Response(s, session, Err(Rejected(e)))
      case Ok(patch) =>
        if purchases.Some? && ValidatePurchases(purchases.value, s.orders).Err? then
          Response(s, session, Err(Rejected(ValidatePurchases(purchases.value, s.orders).error)))
        else
          match UpdateOrder(s, id, patch, purchases)
          case Err(_) => Response(s, session, Err(MissingGood))
          case Ok(updated) => Response(updated, session, Ok(id))
  }

  /**
   An owner holding only `moderate_my_order` updates their own order: with no
   field submitted the request passes the gate, the scope and validation.
   */
  lemma SelfServiceOwnerUpdates(uid: int, session: Session, s: Store, id: int)
    requires Wf(s) && id in s.orders && s.orders[id].owner == Registered(uid)
    ensures UpdateRequest(User(uid), {ModerateMyOrder}, session, s, id, None, None, None, None).result == Ok(id)
  {
  }

  /** The staff-side destroy request. */
  function DestroyRequest(subject: Subject, perms: set<Perm>, session: Session, s: Store, id: int): (resp: Response)
    requires Wf(s)
    ensures Wf(resp.store) && resp.session == session
    ensures resp.result.Err? ==> resp.store == s
    ensures resp.result.Ok? <==> Allowed(Destroy, perms) && id in Scope(subject, perms, s.orders)
    ensures resp.result.Ok? ==> resp.store == DeleteOrder(s, id)
  {
    if !Allowed(Destroy, perms) then Response(s, session, Err(Forbidden))
    else if id !in Scope(subject, perms, s.orders) then Response(s, session, Err(NotFound))
    else Response(DeleteOrder(s, id), session, Ok(id))
  }
}

=== FILE: permissions.dfy ===
/**
 The permissions of Good, Offer, Purchase and Order: Django's four default
 permissions for each of these models, plus the three custom ones declared
 in their Meta classes. The permissions of the other models of the `store`
 application (User, Settings) play no part in this core.
 */
module Permissions {
  import opened Wrappers

  /** The store models that own permissions (their content types). */
  datatype Kind = GoodType | OfferType | PurchaseType | OrderType

  /** Django's default permission verbs. */
  datatype Verb = Add | Change | Delete | View

  /**
   Std(v, k) is `store.<v>_<k>`; ViewMyPurchase is `store.view_my_purchase`
   (declared on Purchase), ViewMyOrder and ModerateMyOrder are
   `store.view_my_order` and `store.moderate_my_order` (declared on Order).
   */
  datatype Perm = Std(verb: Verb, kind: Kind) | ViewMyPurchase | ViewMyOrder | ModerateMyOrder

  /** The name `has_perm` is asked about, such as `store.view_good`. */
  function Name(p: Perm): string
  {
    match p
    case Std(v, k) =>
      (match k
      case GoodType => (match v
        case Add => "store.add_good"
        case Change => "store.change_good"
        case Delete => "store.delete_good"
        case View => "store.view_good")
      case OfferType => (match v
        case Add => "store.add_offer"
        case Change => "store.change_offer"
        case Delete => "store.delete_offer"
        case View => "store.view_offer")
      case PurchaseType => (match v
        case Add => "store.add_purchase"
        case Change => "store.change_purchase"
        case Delete => "store.delete_purchase"
        case View => "store.view_purchase")
      case OrderType => (match v
        case Add => "store.add_order"
        case Change => "store.change_order"
        case Delete => "store.delete_order"
        case View => "store.view_order"))
    case ViewMyPurchase => "store.view_my_purchase"
    case ViewMyOrder => "store.view_my_order"
    case ModerateMyOrder => "store.moderate_my_order"
  }

  /** The permission a name denotes, if any. */
  function PermOfName(n: string): (r: Option<Perm>)
    ensures r.Some? ==> Name(r.value) == n
  {
    if n == "store.add_good" then Some(Std(Add, GoodType))
    else if n == "store.add_offer" then Some(Std(Add, OfferType))
    else if n == "store.add_purchase" then Some(Std(Add, PurchaseType))
    else if n == "store.add_order" then Some(Std(Add, OrderType))
    else if n == "store.change_good" then Some(Std(Change, GoodType))
    else if n == "store.change_offer" then Some(Std(Change, OfferType))
    else if n == "store.change_purchase" then Some(Std(Change, PurchaseType))
    else if n == "store.change_order" then Some(Std(Change, OrderType))
    else if n == "store.delete_good" then Some(Std(Delete, GoodType))
    else if n == "store.delete_offer" then Some(Std(Delete, OfferType))
    else if n == "store.delete_purchase" then Some(Std(Delete, PurchaseType))
    else if n == "store.delete_order" then Some(Std(Delete, OrderType))
    else if n == "store.view_good" then Some(Std(View, GoodType))
    else if n == "store.view_offer" then Some(Std(View, OfferType))
    else if n == "store.view_purchase" then Some(Std(View, PurchaseType))
    else if n == "store.view_order" then Some(Std(View, OrderType))
    else if n == "store.view_my_purchase" then Some(ViewMyPurchase)
    else if n == "store.view_my_order" then Some(ViewMyOrder)
    else if n == "store.moderate_my_order" then Some(ModerateMyOrder)
    else None
  }

  /** Decoding the name of a permission gives the permission back. */
  lemma NameRoundTrip(p: Perm)
    ensures PermOfName(Name(p)) == Some(p)
  {
    match p
    case Std(v, k) =>
      match v {
        case Add => match k { case GoodType => case OfferType => case PurchaseType => case OrderType => }
        case Change => match k { case GoodType => case OfferType => case PurchaseType => case OrderType => }
        case Delete => match k { case GoodType => case OfferType => case PurchaseType => case OrderType => }
        case View => match k { case GoodType => case OfferType => case PurchaseType => case OrderType => }
      }
    case ViewMyPurchase =>
    case ViewMyOrder =>
    case ModerateMyOrder =>
  }

  /**
   Distinct permissions have distinct names, so a permission may stand for
   its name: a `has_perm` question about `Name(p)` is a question about `p`.
   */
  lemma NameInjective(p: Perm, q: Perm)
    ensures Name(p) == Name(q) ==> p == q
  {
    NameRoundTrip(p);
    NameRoundTrip(q);
  }

  /** The model whose content type a permission belongs to. */
  function KindOf(p: Perm): Kind
  {
    match p
    case Std(_, k) => k
    case ViewMyPurchase => PurchaseType
    case ViewMyOrder => OrderType
    case ModerateMyOrder => OrderType
  }

  /** Every permission of one content type, as `Permission.objects.filter(content_type=...)` yields them. */
  function AllOf(k: Kind): (r: set<Perm>)
    ensures forall p :: p in r <==> KindOf(p) == k
  {
    var std := {Std(Add, k), Std(Change, k), Std(Delete, k), Std(View, k)};
    assert forall p: Perm :: p.Std? && p.kind == k ==> p in std by {
      forall p: Perm | p.Std? && p.kind == k { VerbCases(p.verb); }
    }
    if k == PurchaseType then std + {ViewMyPurchase}
    else if k == OrderType then std + {ViewMyOrder, ModerateMyOrder}
    else std
  }

  lemma VerbCases(v: Verb)
    ensures v == Add || v == Change || v == Delete || v == View
  {
  }

  /** True iff the caller holds at least one of `wanted` (an `or` of has_perm calls). */
  predicate HoldsAny(perms: set<Perm>, wanted: set<Perm>)
  {
    exists p :: p in wanted && p in perms
  }
}

=== FILE: purchase_view.dfy ===
/**
 The purchases endpoint: a read-only view set. `view_purchase` shows every
 purchase; `view_my_purchase` shows the purchases of the caller's own orders,
 where an anonymous caller owns the anonymous orders whose ids its session
 lists. The scope falls through to the whole input when the caller holds
 neither permission; the gate, which runs first, refuses such a caller.
 */
module PurchaseView {
  import opened Wrappers
  import opened Permissions
  import opened AccessPolicy
  import opened Models
  import opened Sessions

  const Statements: seq<Statement> := [
    Statement({List, Retrieve}, {Std(View, PurchaseType)}),
    Statement({List, Retrieve}, {ViewMyPurchase})
  ]

  /** A read-only model view set: list and retrieve only. */
  const Handlers: set<Action> := {List, Retrieve}

  function Allowed(requested: Action, perms: set<Perm>): (r: bool)
    ensures r <==> requested in {List, Retrieve} && (Std(View, PurchaseType) in perms || ViewMyPurchase in perms)
  {
    Allows(Statements, Dispatch(Handlers, requested), perms)
  }

  /** The `user` of the order a purchase belongs to, following the foreign key; None when that order is missing. */
  function OrderOwner(p: Purchase, orders: map<int, Order>): Option<Owner>
  {
    if p.order.Some? && p.order.value in orders then Some(orders[p.order.value].owner) else None
  }

  /** Whether an anonymous caller with session list `ids` may see purchase `p`. */
  predicate InSessionOrder(p: Purchase, orders: map<int, Order>, ids: seq<int>)
  {
    OrderOwner(p, orders) == Some(Anonymous) && p.order.value in ids
  }

  function Scope(subject: Subject, perms: set<Perm>, session: Session, qs: map<int, Purchase>, orders: map<int, Order>)
    : (r: map<int, Purchase>)
    ensures SubMap(r, qs)
    ensures Std(View, PurchaseType) in perms ==> r == qs
    ensures Std(View, PurchaseType) !in perms && ViewMyPurchase !in perms ==> r == qs
    ensures Std(View, PurchaseType) !in perms && ViewMyPurchase in perms ==>
      match subject
      case User(uid) => forall k :: k in r <==> k in qs && OrderOwner(qs[k], orders) == Some(Registered(uid))
      case Anon => forall k :: k in r <==> k in qs && InSessionOrder(qs[k], orders, Ids(session))
  {
    if Std(View, PurchaseType) in perms then qs
    else if ViewMyPurchase in perms then
      match subject
      case Anon =>
        var anonymous := map k | k in qs && OrderOwner(qs[k], orders) == Some(Anonymous) :: qs[k];
        var ids := Ids(session);
        if |ids| > 0 then map k | k in anonymous && anonymous[k].order.value in ids :: anonymous[k]
        else map[]
      case User(uid) => map k | k in qs && OrderOwner(qs[k], orders) == Some(Registered(uid)) :: qs[k]
    else qs
  }

  /** `view_purchase` takes precedence: whatever else is granted, the scope is everything. */
  lemma GlobalViewPrecedes(subject: Subject, perms: set<Perm>, session: Session, qs: map<int, Purchase>, orders: map<int, Order>)
    requires Std(View, PurchaseType) in perms
    ensures Scope(subject, perms + {ViewMyPurchase}, session, qs, orders) == qs
  {
  }

  /** An anonymous caller with only `view_my_purchase` and no order ids in its session sees nothing. */
  lemma EmptySessionSeesNothing(perms: set<Perm>, session: Session, qs: map<int, Purchase>, orders: map<int, Order>)
    requires Std(View, PurchaseType) !in perms && ViewMyPurchase in perms
    requires Ids(session) == []
    ensures Scope(Anon, perms, session, qs, orders) == map[]
  {
  }

  /** Listing purchases: the gate decides, and an allowed caller gets its scope. */
  function ListResponse(subject: Subject, perms: set<Perm>, session: Session, qs: map<int, Purchase>, orders: map<int, Order>)
    : (r: Listing<Purchase>)
    ensures r.Listed? <==> Std(View, PurchaseType) in perms || ViewMyPurchase in perms
    ensures r.Listed? ==> SubMap(r.rows, qs) && r.rows == Scope(subject, perms, session, qs, orders)
  {
    ListRows(Allowed(List, perms), Scope(subject, perms, session, qs, orders))
  }

  /** Fetching one purchase: refused by the gate, 404 outside the scope, otherwise the stored row. */
  function RetrieveResponse(subject: Subject, perms: set<Perm>, session: Session, qs: map<int, Purchase>, orders: map<int, Order>, id: int)
    : (r: Lookup<Purchase>)
    ensures r.Refused? <==> Std(View, PurchaseType) !in perms && ViewMyPurchase !in perms
    ensures !r.Refused? ==> (r.InScope? <==> id in Scope(subject, perms, session, qs, orders))
    ensures r.InScope? ==> id in qs && r.row == qs[id]
  {
    Fetch(Allowed(Retrieve, perms), Scope(subject, perms, session, qs, orders), id)
  }

  /**
   What a caller without `view_purchase` can ever be shown is a purchase of
   its own: of one of its orders when registered, of an anonymous order its
   session lists when anonymous. The gate is what makes this hold.
   */
  lemma ShownPurchasesAreOwn(subject: Subject, perms: set<Perm>, session: Session, qs: map<int, Purchase>, orders: map<int, Order>)
    requires Std(View, PurchaseType) !in perms
    ensures ListResponse(subject, perms, session, qs, orders).Listed? ==>
      forall k :: k in ListResponse(subject, perms, session, qs, orders).rows ==>
        match subject
        case User(uid) => OrderOwner(qs[k], orders) == Some(Registered(uid))
        case Anon => InSessionOrder(qs[k], orders, Ids(session))
  {
  }

  /** The scope alone is not safe: without either permission it hands back another user's purchase. */
  lemma ScopeWithoutGateLeaks()
    ensures var qs := map[1 := Purchase(0, Price(1000000), Some(7))];
            var orders := map[7 := Order(Registered(2), "b@example.org", "", Draft)];
            && Scope(User(1), {}, None, qs, orders) == qs
            && ListResponse(User(1), {}, None, qs, orders) == Denied
  {
  }
}

=== FILE: requests.dfy ===
/** The outcome of a request that may change the store or the session. */
module Requests {
  import opened Wrappers
  import opened Sessions
  import opened Store
  import opened Serializers

  datatype RequestError =
    | Forbidden                   // the gate refused (401 or 403)
    | NotFound                    // the record is outside the caller's scope (404)
    | Rejected(reason: Invalid)   // the serializer refused the payload (400)
    | Collision                   // an insert hit a taken key (integrity error)
    | MissingGood                 // an inserted purchase names no stored good (integrity error)
    | EmptyRange                  // `randint` refused a range with lo > hi
    | Exhausted                   // every id attempt collided, or there were none

  /** The store and session after a request, and the id of the order it created or changed. */
  datatype Response = Response(store: Store, session: Session, result: Result<int, RequestError>)
}

=== FILE: serializers.dfy ===
/**
 The order serializers: validation of the `offer_ids` a buyer submits, the
 buyer-side create and update that take purchase snapshots of offers, and
 the staff-side update that replaces an order's purchases with the submitted
 list. Each of them runs in one transaction; as pure functions, a failing
 call leaves the caller with the store it started from.
 */
module Serializers {
  import opened Wrappers
  import opened Models
  import opened Store

  /** A field-level validation error. */
  datatype Invalid = EmptyOfferIds | OffersUnavailable | BadEthAddress | BadStatus | UnknownOrder

  ghost predicate Distinct(ids: seq<int>)
  {
    forall i, j :: 0 <= i < j < |ids| ==> ids[i] != ids[j]
  }

  /** What an accepted `offer_ids` list is: non-empty, without repeats, naming stored offers only. */
  ghost predicate ValidOfferIds(ids: seq<int>, offers: map<int, Offer>)
  {
    |ids| > 0 && Distinct(ids) && forall i :: 0 <= i < |ids| ==> ids[i] in offers
  }

  /** The set of values a list holds has at most its length, and exactly that iff there are no repeats. */
  lemma {:induction false} ElementCount(ids: seq<int>)
    ensures |set k | k in ids| <= |ids|
    ensures |set k | k in ids| == |ids| <==> Distinct(ids)
    decreases |ids|
  {
    if |ids| > 0 {
      var rest := ids[1..];
      ElementCount(rest);
      var e := set k | k in ids;
      var er := set k | k in rest;
      assert e == er + {ids[0]};
      if ids[0] in rest {
        var j :| 0 <= j < |rest| && rest[j] == ids[0];
        assert ids[0] == ids[j + 1];
        assert e == er;
      } else {
        assert |e| == |er| + 1;
        if Distinct(rest) {
          forall i, j | 0 <= i < j < |ids| ensures ids[i] != ids[j] {
            if i > 0 {
              assert ids[i] == rest[i - 1] && ids[j] == rest[j - 1];
            } else {
              assert ids[j] == rest[j - 1];
            }
          }
        } else {
          var i, j :| 0 <= i < j < |rest| && rest[i] == rest[j];
          assert ids[i + 1] == ids[j + 1];
        }
      }
    }
  }

  /** The count `validate_offer_ids` compares: the stored offers named by the list equal its length exactly when the list is valid. */
  lemma MatchCount(ids: seq<int>, offers: map<int, Offer>)
    ensures |set k | k in ids && k in offers| == |ids| <==> Distinct(ids) && forall i :: 0 <= i < |ids| ==> ids[i] in offers
  {
    var s := set k | k in ids && k in offers;
    var e := set k | k in ids;
    ElementCount(ids);
    assert e == s + (e - s) && s * (e - s) == {};
    assert |e| == |s| + |e - s|;
    if |s| == |ids| {
      assert |e - s| == 0;
      assert s == e;
      forall i | 0 <= i < |ids| ensures ids[i] in offers {
        assert ids[i] in e;
      }
    }
    if Distinct(ids) && forall i :: 0 <= i < |ids| ==> ids[i] in offers {
      forall k | k in e ensures k in s {
        var i :| 0 <= i < |ids| && ids[i] == k;
      }
      assert s == e;
    }
  }

  /** `offer_ids` validation: the non-empty check of the field, then the count of matching offers. */
  function ValidateOfferIds(ids: seq<int>, offers: map<int, Offer>): (r: Result<seq<int>, Invalid>)
    ensures r.Ok? <==> ValidOfferIds(ids, offers)
    ensures r.Ok? ==> r.value == ids
    ensures |ids| == 0 ==> r == Err(EmptyOfferIds)
  {
    MatchCount(ids, offers);
    if |ids| == 0 then Err(EmptyOfferIds)
    else if |set k | k in ids && k in offers| != |ids| then Err(OffersUnavailable)
    else Ok(ids)
  }

  /** One purchase snapshot per listed offer, in list order. */
  function Snapshots(ids: seq<int>, offers: map<int, Offer>): (ps: seq<Purchase>)
    requires forall i :: 0 <= i < |ids| ==> ids[i] in offers
    ensures |ps| == |ids|
    ensures forall i :: 0 <= i < |ids| ==> ps[i] == FromOffer(offers[ids[i]])
  {
    seq(|ids|, i requires 0 <= i < |ids| => FromOffer(offers[ids[i]]))
  }

  /**
   The buyer-side create: store the order under `id` (owned by the caller
   unless anonymous, in Draft), then one purchase snapshot per listed offer.
   A taken `id` raises an integrity error.
   */
  function CreateMyOrder(s: Store, subject: Subject, email: string, ids: seq<int>, id: int): (r: Result<Store, DbError>)
    requires Wf(s) && ValidOfferIds(ids, s.offers)
    ensures r.Err? <==> id in s.orders
    ensures r.Ok? ==>
      && Wf(r.value)
      && r.value.orders == s.orders[id := NewOrder(OwnerFor(subject), email)]
      && HoldsExactly(r.value, id, s.purchaseSeq, Snapshots(ids, s.offers))
      && NewPurchasesBelongTo(s, r.value, id)
      && (forall k :: k in s.purchases ==> k in r.value.purchases && r.value.purchases[k] == s.purchases[k])
      && r.value.goods == s.goods && r.value.offers == s.offers && r.value.orderSeq == s.orderSeq
  {
    if id in s.orders then Err(IntegrityError)
    else
      var placed := s.(orders := s.orders[id := NewOrder(OwnerFor(subject), email)]);
      assert forall k :: k in s.purchases ==> s.purchases[k].order != Some(id);
      assert PurchasesOf(placed, id) == map[];
      assert GoodsExist(Snapshots(ids, s.offers), s.goods);
      Ok(AttachPurchases(placed, id, Snapshots(ids, s.offers)))
  }

  /** The value a partial update leaves in a field: the submitted one, else the current one. */
  function Patched<T>(submitted: Option<T>, current: T): T
  {
    if submitted.Some? then submitted.value else current
  }

  /**
   The buyer-side update: a non-empty `offer_ids` replaces every purchase of
   the order with snapshots of those offers; without it the purchases stay.
   Then the e-mail is written; owner and status cannot change here.
   */
  function UpdateMyOrder(s: Store, id: int, email: Option<string>, ids: Option<seq<int>>): (r: Store)
    requires Wf(s) && id in s.orders
    requires ids.Some? ==> ValidOfferIds(ids.value, s.offers)
    ensures Wf(r)
    ensures r.orders == s.orders[id := s.orders[id].(email := Patched(email, s.orders[id].email))]
    ensures ids.Some? ==> HoldsExactly(r, id, s.purchaseSeq, Snapshots(ids.value, s.offers))
    ensures ids.None? ==> r.purchases == s.purchases
    ensures NewPurchasesBelongTo(s, r, id)
    ensures r.goods == s.goods && r.offers == s.offers && r.orderSeq == s.orderSeq
    ensures forall k :: k in s.purchases && s.purchases[k].order != Some(id) ==>
      k in r.purchases && r.purchases[k] == s.purchases[k]
  {
    var offerIds := if ids.Some? then ids.value else [];
    assert GoodsExist(Snapshots(offerIds, s.offers), s.goods);
    var replaced :=
      if |offerIds| > 0 then AttachPurchases(DropPurchasesOf(s, id), id, Snapshots(offerIds, s.offers))
      else s;
    replaced.(orders := replaced.orders[id := replaced.orders[id].(email := Patched(email, replaced.orders[id].email))])
  }

  /** The writable fields of the staff-side order serializer; `user` is read-only. */
  datatype OrderPatch = OrderPatch(email: Option<string>, ethAddress: Option<string>, status: Option<Status>)

  /** Field validation of a staff-side update: the address length and the status choice. */
  function ValidateOrderPatch(email: Option<string>, ethAddress: Option<string>, statusCode: Option<string>)
    : (r: Result<OrderPatch, Invalid>)
    ensures r.Ok? <==>
      (ethAddress.Some? ==> ValidEthAddress(ethAddress.value)) && (statusCode.Some? ==> StatusOfCode(statusCode.value).Some?)
    ensures r.Ok? ==> r.value.email == email && r.value.ethAddress == ethAddress
    ensures r.Ok? ==> (r.value.status.Some? <==> statusCode.Some?)
    ensures r.Ok? && statusCode.Some? ==> Code(r.value.status.value) == statusCode.value
  {
    if ethAddress.Some? && !ValidEthAddress(ethAddress.value) then Err(BadEthAddress)
    else if statusCode.Some? && StatusOfCode(statusCode.value).None? then Err(BadStatus)
    else Ok(OrderPatch(email, ethAddress, if statusCode.Some? then StatusOfCode(statusCode.value) else None))
  }

  /**
   Validation of the submitted purchases by the nested purchase serializer:
   an `order` a purchase names must be a stored order (it is then replaced by
   the order being updated).
   */
  function ValidatePurchases(ps: seq<Purchase>, orders: map<int, Order>): (r: Result<seq<Purchase>, Invalid>)
    ensures r.Err? <==> exists i :: 0 <= i < |ps| && ps[i].order.Some? && ps[i].order.value !in orders
    ensures r.Err? ==> r.error == UnknownOrder
    ensures r.Ok? ==> r.value == ps
  {
    if exists i :: 0 <= i < |ps| && ps[i].order.Some? && ps[i].order.value !in orders then Err(UnknownOrder)
    else Ok(ps)
  }

  /**
   The staff-side update: every purchase of the order is deleted, one purchase
   per submitted entry is created (none when the list is omitted), then the
   remaining fields are written. A submitted purchase whose good is not stored
   fails its foreign key, and the whole update is rolled back.
   */
  function UpdateOrder(s: Store, id: int, patch: OrderPatch, purchases: Option<seq<Purchase>>): (r: Result<Store, DbError>)
    requires Wf(s) && id in s.orders
    ensures r.Err? <==> !GoodsExist(Patched(purchases, []), s.goods)
    ensures r.Ok? ==> Wf(r.value)
    ensures r.Ok? ==> HoldsExactly(r.value, id, s.purchaseSeq, Patched(purchases, []))
    ensures r.Ok? ==> NewPurchasesBelongTo(s, r.value, id)
    ensures r.Ok? ==> r.value.orders.Keys == s.orders.Keys
    ensures r.Ok? ==> forall k :: k in s.orders && k != id ==> r.value.orders[k] == s.orders[k]
    ensures r.Ok? ==> r.value.orders[id].owner == s.orders[id].owner
    ensures r.Ok? ==> r.value.orders[id].email == Patched(patch.email, s.orders[id].email)
    ensures r.Ok? ==> r.value.orders[id].ethAddress == Patched(patch.ethAddress, s.orders[id].ethAddress)
    ensures r.Ok? ==> r.value.orders[id].status == Patched(patch.status, s.orders[id].status)
    ensures r.Ok? ==> forall k :: k in s.purchases && s.purchases[k].order != Some(id) ==>
      k in r.value.purchases && r.value.purchases[k] == s.purchases[k]
    ensures r.Ok? ==> r.value.goods == s.goods && r.value.offers == s.offers
  {
    var ps := Patched(purchases, []);
    if !GoodsExist(ps, s.goods) then Err(IntegrityError)
    else
      var replaced := AttachPurchases(DropPurchasesOf(s, id), id, ps);
      var o := replaced.orders[id];
      var o' := o.(email := Patched(patch.email, o.email),
                   ethAddress := Patched(patch.ethAddress, o.ethAddress),
                   status := Patched(patch.status, o.status));
      Ok(replaced.(orders := replaced.orders[id := o']))
  }
}

=== FILE: sessions.dfy ===
/**
 The one session entry this core reads and writes: the list of ids of the
 orders an anonymous caller created. None stands for a session without the key.
 */
module Sessions {
  import opened Wrappers

  type Session = Option<seq<int>>

  /** `session.get(key, [])`: the stored list, or the empty list when the key is missing. */
  function Ids(s: Session): (ids: seq<int>)
    ensures s.None? ==> ids == []
    ensures s.Some? ==> ids == s.value
  {
    match s
    case None => []
    case Some(ids) => ids
  }

  /** `session.setdefault(key, []).append(id)`. */
  function Bind(s: Session, id: int): (r: Session)
    ensures r.Some? && |r.value| == |Ids(s)| + 1
    ensures r.value[..|Ids(s)|] == Ids(s) && r.value[|Ids(s)|] == id
  {
    Some(Ids(s) + [id])
  }
}

=== FILE: store.dfy ===
/**
 The database tables the core touches, keyed by primary key, with the
 integrity the database keeps: every purchase belongs to a stored order,
 purchase keys come from a sequence, and the two uniqueness constraints hold.
 */
module Store {
  import opened Wrappers
  import opened Models

  /**
   `orderSeq` and `purchaseSeq` are the next values of the primary-key
   sequences used when an insert does not name its key.
   */
  datatype Store = Store(
    goods: map<int, Good>,
    offers: map<int, Offer>,
    orders: map<int, Order>,
    purchases: map<int, Purchase>,
    orderSeq: int,
    purchaseSeq: int)

  /**
   The integrity the database keeps: purchase keys below the sequence, every
   purchase's order and good stored, every offer's good stored, and the two
   uniqueness constraints.
   */
  ghost predicate Wf(s: Store)
  {
    && (forall k :: k in s.purchases ==> k < s.purchaseSeq)
    && (forall k :: k in s.purchases ==> s.purchases[k].order.Some? && s.purchases[k].order.value in s.orders)
    && (forall k :: k in s.purchases ==> s.purchases[k].good in s.goods)
    && (forall k :: k in s.offers ==> s.offers[k].good in s.goods)
    && GoodNamesUnique(s.goods)
    && OfferPairsUnique(s.offers)
  }

  /** Every purchase of `ps` names a stored good: the foreign key each insert is checked against. */
  predicate GoodsExist(ps: seq<Purchase>, goods: map<int, Good>)
  {
    forall i :: 0 <= i < |ps| ==> ps[i].good in goods
  }

  /** `order.purchases`: the purchases whose order is `id`. */
  function PurchasesOf(s: Store, id: int): (r: map<int, Purchase>)
    ensures forall k :: k in r <==> k in s.purchases && s.purchases[k].order == Some(id)
    ensures forall k :: k in r ==> r[k] == s.purchases[k]
  {
    map k | k in s.purchases && s.purchases[k].order == Some(id) :: s.purchases[k]
  }

  /** Purchases `ps`, attached to order `id`, sit at consecutive keys from `base`, and no other purchase belongs to `id`. */
  ghost predicate HoldsExactly(s: Store, id: int, base: int, ps: seq<Purchase>)
  {
    && (forall k :: k in s.purchases && s.purchases[k].order == Some(id) <==> base <= k < base + |ps|)
    && (forall i :: 0 <= i < |ps| ==> base + i in s.purchases && s.purchases[base + i] == ps[i].(order := Some(id)))
  }

  /** Every purchase of `r` that `s` did not have belongs to order `id`: no other order gained a purchase. */
  ghost predicate NewPurchasesBelongTo(s: Store, r: Store, id: int)
  {
    forall k :: k in r.purchases && k !in s.purchases ==> r.purchases[k].order == Some(id)
  }

  /** `instance.purchases.get_queryset().delete()`. */
  function DropPurchasesOf(s: Store, id: int): (r: Store)
    requires Wf(s)
    ensures Wf(r)
    ensures PurchasesOf(r, id) == map[]
    ensures forall k :: k in r.purchases <==> k in s.purchases && s.purchases[k].order != Some(id)
    ensures forall k :: k in r.purchases ==> r.purchases[k] == s.purchases[k]
    ensures r.(purchases := s.purchases) == s
  {
    s.(purchases := map k | k in s.purchases && s.purchases[k].order != Some(id) :: s.purchases[k])
  }

  /** `ps` attached to order `id` and laid out at consecutive keys from `base`. */
  function Placed(base: int, id: int, ps: seq<Purchase>): (r: map<int, Purchase>)
    ensures forall k :: k in r <==> base <= k < base + |ps|
    ensures forall i :: 0 <= i < |ps| ==> r[base + i] == ps[i].(order := Some(id))
    ensures forall k :: k in r ==> r[k].order == Some(id)
    decreases |ps|
  {
    if |ps| == 0 then map[]
    else Placed(base, id, ps[..|ps| - 1])[base + |ps| - 1 := ps[|ps| - 1].(order := Some(id))]
  }

  /** Saving each of `ps` with its order set to `id`, under fresh keys drawn from the purchase sequence. */
  function AttachPurchases(s: Store, id: int, ps: seq<Purchase>): (r: Store)
    requires Wf(s) && id in s.orders && GoodsExist(ps, s.goods)
    requires PurchasesOf(s, id) == map[]
    ensures Wf(r)
    ensures HoldsExactly(r, id, s.purchaseSeq, ps)
    ensures forall k :: k in s.purchases ==> k in r.purchases && r.purchases[k] == s.purchases[k]
    ensures NewPurchasesBelongTo(s, r, id)
    ensures r.(purchases := s.purchases, purchaseSeq := s.purchaseSeq) == s
  {
    var placed := Placed(s.purchaseSeq, id, ps);
    assert forall k :: k in s.purchases ==> k !in placed;
    forall k | k in placed ensures placed[k].good in s.goods {
      var i := k - s.purchaseSeq;
      assert placed[s.purchaseSeq + i] == ps[i].(order := Some(id));
    }
    s.(purchases := s.purchases + placed, purchaseSeq := s.purchaseSeq + |ps|)
  }

  /** Deleting an order; its purchases go with it (the foreign key cascades). */
  function DeleteOrder(s: Store, id: int): (r: Store)
    requires Wf(s)
    ensures Wf(r)
    ensures r.orders == s.orders - {id}
    ensures forall k :: k in r.purchases <==> k in s.purchases && s.purchases[k].order != Some(id)
    ensures forall k :: k in r.purchases ==> r.purchases[k] == s.purchases[k]
    ensures r.goods == s.goods && r.offers == s.offers
    ensures r.orderSeq == s.orderSeq && r.purchaseSeq == s.purchaseSeq
  {
    var dropped := DropPurchasesOf(s, id);
    dropped.(orders := dropped.orders - {id})
  }
}

=== FILE: wrappers.dfy ===
/** Option and Result, the two failure-carrying datatypes the model uses. */
module Wrappers {

  datatype Option<+T> = None | Some(value: T)

  datatype Result<+T, +E> = Ok(value: T) | Err(error: E)
}
